=== FILE: README.md ===
# Admin dashboard of the federated-learning platform, modelled in Dafny

The admins service is a Next.js dashboard. Platform administrators use it to
do the following:

- create model users;
- issue API tokens;
- invite other admins;
- switch user authorisation on and off;
- look at platform figures;
- browse MLflow runs and their artifacts;
- inspect a model's predictions from a Parquet file, which is queried in the
  browser by an embedded DuckDB engine.

This project models the dashboard's logic: what each component computes and
what state it holds. It leaves out the rendering.

It models the following, one module per source file:

- **`DuckDbHook`** (`src/hooks/useDuckDB.ts`): the data hook of the model inspector.
  - It holds the hook's state as a class: the four state flags, the engine and
    connection references, and the cancellation flag of the start-up effect.
    Start-up, teardown, `loadParquetFile` and `clearData` are its methods.
  - It decodes the query result into rows. Each row reads its `input` bytes in
    one of two ways: as a slice of the Arrow data buffer (the fast path), or by
    copying the cell's bytes. The scores and the label are coerced to numbers.
  - With the Apache Arrow variable-size binary layout, the rows' input bytes,
    read in order, tile the data buffer exactly. The model proves this.
- **`ParquetViewer`** (`src/components/parquet-viewer.tsx`):
  - `findMaxIndex`, which has NaN-aware comparisons and keeps the first of
    equal maxima;
  - the shape rule of the MNIST canvas, with its special cases 784 and 50176
    and the perfect-square rule;
  - the min/max normalisation and the RGBA pixel loop, written over an array;
  - the prediction cell, the status column, the row tint, the correct and
    incorrect counts, and the accuracy;
  - the order of the viewer's screens.
- **`Dashboard`** (`src/components/dashboard.tsx`):
  - the figure cards;
  - the model-type distribution, a `reduce` into a dictionary written as a
    loop over a map;
  - the token lead-time average and maximum.
- **`ArtifactDrawer`** (`src/components/artifact-drawer.tsx`):
  - the drawer's state as a class: the root listing, the loading and error
    flags, the expanded directories, and the cache of nested listings;
  - `fetchArtifacts`, `toggleDir` and the open effect;
  - file-size labels, the names shown and downloaded, and the body panel.
- **`ModelEvaluationsTable`** (`src/components/tables/model-evaluations-table.tsx`):
  - the clamp of the result count;
  - the extraction of the accuracy metric;
  - the CORS classification of errors;
  - the case-insensitive run search and the view selection.
- **`AdminsTable`** (`src/components/tables/admins-table.tsx`): the
  case-sensitive email search and the spinner.
- **`ApiFetch`** (`src/external/api.ts`): the error that the shared API helper
  throws for a failed response. The forms read its fields.
- **`TokenForm`**, **`AdminForm`**, **`UserForm`** and **`LoginForm`**
  (`src/components/forms/`): the forms' state, the requests they send, and
  the messages they choose for errors.
- **`SetPasswordCard`** (`src/components/set-password-card.tsx`):
  - the validation order;
  - the inline hints;
  - the sign-up request and its outcome;
  - the error toast shown while rendering.
- **`Middleware`** (`src/middleware.ts`):
  - the configuration check;
  - the login guard;
  - the authenticated rewrite of MLflow requests to the tracking server,
    including the unanchored removal of `/mlflow-proxy`.
- **`AuthorizationToggle`** (`src/components/authorization-toggle.tsx`): the
  optimistic switch, which falls back to its prop when the update fails, and
  the two forms of error toast.

Some modules support the others:

- `Js` holds the JavaScript runtime values and conversions that the dashboard
  depends on:
  - numbers including NaN and the infinities;
  - truthiness;
  - `Number(x)`;
  - thrown values;
  - the outcome of `JSON.parse`.
- `Strings` holds `startsWith`, `includes`, `indexOf`, first-occurrence
  `replace` and ASCII lower-casing.
- `Seqs` holds `filter`, counting, and scans over reals.
- `Wrappers` holds `Option`.

Asynchronous steps are method parameters that say how each step ended. These
include the engine start-up, queries, `fetch`, the sign-in call, mutations and
query invalidation.
The submits of all five forms (token, admin, user, login and set-password), the
authorization toggle, the hook's file load and the artifact drawer's listings
are split in two halves, before and after the awaited request, so the state
while a request is pending is part of the model: the previous data stays, and
loading is on and the previous error cleared, except that the drawer's nested
listings touch neither and the set-password card keeps its error.

## Model

| member | source | states |
|---|---|---|
| Js.ToNumber | src/hooks/useDuckDB.ts:156 | `Number(v)`: a number is kept, `undefined` and objects give NaN, `null` gives 0 |
| Js.MessageOr | src/hooks/useDuckDB.ts:66 | `err instanceof Error ? err.message : fallback`: an Error's message, any other thrown value the fallback |
| Strings.ReplaceFirst | src/middleware.ts:66 | a string pattern replaces only its first occurrence; with no occurrence the text is unchanged |
| DuckDbHook.RelativeIndex | src/hooks/useDuckDB.ts:127-130 | how `ArrayBuffer.slice` resolves an index: the result lies within the buffer, and an in-range index is kept |
| DuckDbHook.ArrayBufferSlice | src/hooks/useDuckDB.ts:127-130 | `slice(start, end)` never fails: an in-range range gives exactly those bytes, and an inverted range gives none |
| DuckDbHook.MapToNumber | src/hooks/useDuckDB.ts:147 | `map(Number)` keeps the length and converts each element in place |
| DuckDbHook.Rows | src/hooks/useDuckDB.ts:121-163 | one record per result row, in row order, each being that row's decoded record |
| DuckDbHook.ReadRow | src/hooks/useDuckDB.ts:122-162 | the loop body gives row `i`'s record: fast-path or fallback input bytes, scores and label |
| DuckDbHook.ExtractRows | src/hooks/useDuckDB.ts:111-163 | the load loop pushes exactly `numRows` records, the `i`-th being row `i`'s record |
| DuckDbHook.FastPathIsSlice | src/hooks/useDuckDB.ts:124-130 | on the fast path, with in-range offsets, a row's input is the buffer's bytes from `byteOffset + offsets[i]` to `byteOffset + offsets[i+1]` |
| DuckDbHook.FallbackInput | src/hooks/useDuckDB.ts:131-139 | off the fast path a `Uint8Array` cell is copied byte for byte, and any other cell gives no bytes |
| DuckDbHook.LayoutUsesFastPath | src/hooks/useDuckDB.ts:124 | under the Arrow binary layout every row takes the fast path |
| DuckDbHook.FlattenTiles | src/hooks/useDuckDB.ts:121-130 | consecutive slices of one buffer, cut at non-decreasing positions, join up to the slice from the first cut to the last |
| DuckDbHook.RowsTileBuffer | src/hooks/useDuckDB.ts:118-130 | under the Arrow layout, the inputs of rows `0..n-1` concatenated are exactly the buffer bytes between the first and the `n`-th offset: none is lost, repeated or reordered |
| DuckDbHook.NumericArrayRoundTrip | src/hooks/useDuckDB.ts:146-147 | an array of numbers comes back unchanged as the score list |
| DuckDbHook.NonObjectPredIsEmpty | src/hooks/useDuckDB.ts:152-154 | `null`, `undefined` and primitive score cells give an empty score list |
| DuckDbHook.PredValuesLength | src/hooks/useDuckDB.ts:145-154 | object score cells give one score per element, so none is dropped or invented |
| DuckDbHook.TestValueIsNumber | src/hooks/useDuckDB.ts:156 | the label is the cell as a number: numbers are kept, anything else goes through `Number` |
| DuckDbHook.DuckDbHook.constructor | src/hooks/useDuckDB.ts:22-28 | on mount the hook is loading, not ready, has no error, no rows and no engine |
| DuckDbHook.DuckDbHook.Init | src/hooks/useDuckDB.ts:30-70 | start-up. Once connected, the hook is ready and not loading. A failure sets the Error message or "Failed to initialize DuckDB", and only when not cancelled. An engine instantiated after teardown is terminated and never stored |
| DuckDbHook.DuckDbHook.Teardown | src/hooks/useDuckDB.ts:74-82 | cleanup marks the effect cancelled, closes a stored connection and terminates a stored engine; nothing else changes |
| DuckDbHook.DuckDbHook.BeginLoad | src/hooks/useDuckDB.ts:85-93 | without an engine the error is "DuckDB not initialized" and nothing else changes. Otherwise loading is on and the error cleared while the file is queried, and the old rows stay |
| DuckDbHook.DuckDbHook.FinishLoad | src/hooks/useDuckDB.ts:94-171 | a query that answers replaces the rows with the decoded result. A throw keeps the rows and sets the message. Loading is off either way |
| DuckDbHook.DuckDbHook.LoadParquetFile | src/hooks/useDuckDB.ts:85-171 | the two halves in turn: without an engine the error is "DuckDB not initialized" and nothing else changes. A query that answers replaces the rows with the decoded result and clears the error. A throw keeps the rows and sets the message |
| DuckDbHook.DuckDbHook.ClearData | src/hooks/useDuckDB.ts:173-176 | no rows and no error; the flags and the engine are untouched |
| ParquetViewer.ScanMax | src/components/parquet-viewer.tsx:27-38 | the scan's index is in range and holds its value, and no later element is strictly greater |
| ParquetViewer.MaxIndexOf | src/components/parquet-viewer.tsx:27-38 | an empty list gives index 0 and value 0; otherwise an in-range index and the value at it |
| ParquetViewer.ScanMaxIsFirstMaximum | src/components/parquet-viewer.tsx:30-36 | without NaN the value is a maximum, and it is strictly greater than everything before its index |
| ParquetViewer.FirstMaximumWins | src/components/parquet-viewer.tsx:32-35 | of two equal scores the later one is never chosen |
| ParquetViewer.FindMaxIndex | src/components/parquet-viewer.tsx:27-38 | the loop returns the first index of a maximum (without NaN), or (0, 0) for an empty list |
| ParquetViewer.IntegerSqrt | src/components/parquet-viewer.tsx:74-75 | `Number.isInteger(Math.sqrt(n))`: a root is returned exactly when `n` is a perfect square |
| ParquetViewer.ResolveShapeSpec | src/components/parquet-viewer.tsx:65-82 | a shape exists exactly for 784, 50176 and the positive perfect squares. It is square, draws `width*height` values, never more than there are, and all of them except in the 50176 case |
| ParquetViewer.SpecialCountsAgainstSquareRule | src/components/parquet-viewer.tsx:65-72 | 784 agrees with the square rule; 50176 (224²) is cut to a 28x28 image instead |
| ParquetViewer.Spread | src/components/parquet-viewer.tsx:94 | `maxVal - minVal \|\| 1` is never 0, and it is the difference when that is positive |
| ParquetViewer.Round | src/components/parquet-viewer.tsx:101 | `Math.round` gives the nearest integer, rounding halves up |
| ParquetViewer.BrightnessInRange | src/components/parquet-viewer.tsx:98-101 | every value between the minimum and the maximum normalises into [0, 1] and gets a grey level in 0..255 |
| ParquetViewer.BrightnessMonotone | src/components/parquet-viewer.tsx:100-101 | a larger value is never darker |
| ParquetViewer.ImagePixels | src/components/parquet-viewer.tsx:98-107 | the image has 4 bytes per pixel: R = G = B = the pixel's grey level, and alpha 255 |
| ParquetViewer.MinMax | src/components/parquet-viewer.tsx:87-93 | the loop returns the least and greatest pixel (both 0 for none), bounding every pixel |
| ParquetViewer.FillPixels | src/components/parquet-viewer.tsx:98-108 | after the pixel loop every byte of the image buffer holds its channel value |
| ParquetViewer.FilledImage | src/components/parquet-viewer.tsx:96-108 | a buffer holding every channel of the normalised pixels is the image of those pixels |
| ParquetViewer.SelectPixels | src/components/parquet-viewer.tsx:65-82 | the size branch gives the resolved shape and the leading `rendered` values |
| ParquetViewer.DrawCanvas | src/components/parquet-viewer.tsx:44-115 | drawn exactly when there are bytes, a context, an aligned view and a shape. Then the size is the shape and the pixels are the image of the drawn values; otherwise the placeholder |
| ParquetViewer.Predict | src/components/parquet-viewer.tsx:138-143 | no scores give label -1 with confidence 0; otherwise an in-range label whose score is the maximum (without NaN) |
| ParquetViewer.AccuracyBounds | src/components/parquet-viewer.tsx:354 | accuracy lies in [0, 100]: it is 0 without rows, and 100 exactly when every row counts as correct |
| ParquetViewer.EmptyScoresCountAsIncorrect | src/components/parquet-viewer.tsx:346-352 | the Incorrect card counts exactly the rows not counted correct, including every row without scores |
| ParquetViewer.ScoreViewsAgree | src/components/parquet-viewer.tsx:393-402 | a row without scores has no badge, no tint and no count. With scores, the badge, the tint and the correct count agree |
| ParquetViewer.EmptyScoresCell | src/components/parquet-viewer.tsx:138-145 | with no scores the prediction cell is green exactly when the label is -1 |
| ParquetViewer.ScreenPriority | src/components/parquet-viewer.tsx:484-543 | each screen exactly when its condition holds: the start-up spinner first, then a non-empty error showing its text, then the drop zone when there are no rows (disabled while loading), then the table with its row count (with the skeleton while loading) |
| ParquetViewer.ClearedReadyHookShowsDropzone | src/components/parquet-viewer.tsx:484-518 | after "Try Again" (no rows, no error) the drop zone shows, disabled only while loading, unless the engine is still starting, which keeps the spinner; no error screen either way |
| Dashboard.OrEmpty | src/components/dashboard.tsx:55-56 | `list \|\| []`: a missing list is empty, and a present one is kept |
| Dashboard.CountModel | src/components/dashboard.tsx:62-65 | how many users have a model type: positive exactly when some user has it |
| Dashboard.DistributionStep | src/components/dashboard.tsx:63 | one step of the reduce keeps the accumulator a distribution of the users seen so far |
| Dashboard.DistributionCounts | src/components/dashboard.tsx:62-65 | the reduce's keys are the model types present, each value is that type's count, and the values sum to the number of users |
| Dashboard.ModelDistribution | src/components/dashboard.tsx:62-65 | the loop's map has the occurring model types as keys and each type's user count as value, with values summing to the user total |
| Dashboard.LeadTimes | src/components/dashboard.tsx:70-72 | the lead times of exactly the tokens that have one, in token order: the i-th value is the lead time of the i-th token that has one |
| Dashboard.PercentageBounds | src/components/dashboard.tsx:60 | the authorised percentage lies in [0, 100] and is 0 without users |
| Dashboard.AverageBetween | src/components/dashboard.tsx:76-78 | the average lead time lies between the least and the greatest lead time |
| Dashboard.LeadTimesNonEmpty | src/components/dashboard.tsx:74 | the latency card shows exactly when some token has a lead time |
| Dashboard.LargestLeadTime | src/components/dashboard.tsx:80-82 | the maximum lead time is some token's lead time and bounds them all |
| Dashboard.Render | src/components/dashboard.tsx:47-82 | the spinner while either query loads. Otherwise the cards show the totals, the authorised and active counts, the percentage, the model distribution and whether any lead time exists, with missing lists counting as empty |
| ArtifactDrawer.FormatFileSize | src/components/artifact-drawer.tsx:145-150 | no size gives no label; the unit is B below 1024, KB below 1024², MB from 1024² up |
| ArtifactDrawer.FormatFileSizeRoundTrip | src/components/artifact-drawer.tsx:147-149 | the printed number times its unit is the byte count, and KB and MB numbers are at least 1 (KB below 1024) |
| ArtifactDrawer.LastSegment | src/components/artifact-drawer.tsx:156 | `split("/").pop()` is the suffix after the last "/" and contains no "/" |
| ArtifactDrawer.NamesSpec | src/components/artifact-drawer.tsx:134 | a path ending in "/" shows itself and downloads as "artifact". Otherwise both names are its last segment |
| ArtifactDrawer.LastSegmentOfJoin | src/components/artifact-drawer.tsx:156 | a name without "/" appended after "/" is the last segment |
| ArtifactDrawer.Toggled | src/components/artifact-drawer.tsx:112-121 | the toggled path flips its membership; every other path keeps it |
| ArtifactDrawer.ToggleTwice | src/components/artifact-drawer.tsx:111-122 | toggling the same directory twice restores the expanded set |
| ArtifactDrawer.FailureMessage | src/components/artifact-drawer.tsx:88-89 | a non-ok response records "Failed to fetch artifacts: status". A thrown non-Error records "Failed to fetch artifacts" |
| ArtifactDrawer.PanelOf | src/components/artifact-drawer.tsx:256-294 | loading first, then a non-empty error, then the empty panel exactly when there are no artifacts, and the tree exactly when there are some |
| ArtifactDrawer.Drawer.constructor | src/components/artifact-drawer.tsx:50-54 | no artifacts, not loading, no error, nothing expanded or cached |
| ArtifactDrawer.Drawer.BeginFetch | src/components/artifact-drawer.tsx:56-72 | without a run id no request is made. Only the root listing turns loading on and clears the error while it is awaited. Every listing shown so far stays |
| ArtifactDrawer.Drawer.FinishFetch | src/components/artifact-drawer.tsx:72-98 | the root listing replaces the artifacts (a missing `files` is empty) or sets the error, and loading ends. A nested listing is cached under its path, and its failure changes nothing |
| ArtifactDrawer.Drawer.FetchArtifacts | src/components/artifact-drawer.tsx:56-101 | the two halves in turn: without a run id nothing changes. The root listing replaces the artifacts (a missing `files` is empty) and alone touches loading and error. A nested listing is cached under its path, and its failure changes nothing |
| ArtifactDrawer.Drawer.ToggleDir | src/components/artifact-drawer.tsx:111-122 | the directory's expansion flips. A request is made only when expanding a directory with no cached listing, and an empty cached listing counts as cached. The state after the request is stated for every run id and path, including the root listing for an empty path |
| ArtifactDrawer.Drawer.BeginOpen | src/components/artifact-drawer.tsx:103-109 | opening with a run id starts the root listing (loading on, error cleared) and, without waiting, forgets expansions and cache; otherwise nothing changes |
| ArtifactDrawer.Drawer.Open | src/components/artifact-drawer.tsx:103-109 | the start and the end of the root listing in turn: opening with a run id lists the root and forgets expansions and cache; otherwise nothing changes |
| ModelEvaluationsTable.SafeMaxResults | src/components/tables/model-evaluations-table.tsx:75 | the result is at least 1. 0 and NaN give 10, a non-zero value below 1 gives 1, and values from 1 up are kept |
| ModelEvaluationsTable.FindAccuracy | src/components/tables/model-evaluations-table.tsx:95 | no value exactly when no metric is "accuracy"; otherwise the value of the first such metric |
| ModelEvaluationsTable.ToRows | src/components/tables/model-evaluations-table.tsx:94-103 | one row per run in order (none for a missing list), each carrying the run's id, name, status, start time and accuracy |
| ModelEvaluationsTable.RowAccuracy | src/components/tables/model-evaluations-table.tsx:95-101 | no metrics give no accuracy, and a leading accuracy metric gives its value. Any accuracy shown comes from an "accuracy" metric |
| ModelEvaluationsTable.IsCORSError | src/components/tables/model-evaluations-table.tsx:142-149 | no error is not CORS. Otherwise it is CORS exactly when the message contains "Failed to fetch", "NetworkError" or "CORS" |
| ModelEvaluationsTable.BlockedRequestIsCORS | src/components/tables/model-evaluations-table.tsx:145 | any message containing "Failed to fetch" is classified as CORS |
| ModelEvaluationsTable.FilteredRuns | src/components/tables/model-evaluations-table.tsx:200-204 | exactly the runs whose lower-cased name or id contains the lower-cased search; none for a missing list |
| ModelEvaluationsTable.FilteredRunsIsSubsequence | src/components/tables/model-evaluations-table.tsx:200-204 | the filtered runs keep their order |
| ModelEvaluationsTable.EmptySearchKeepsAll | src/components/tables/model-evaluations-table.tsx:200-204 | an empty search keeps every run |
| ModelEvaluationsTable.SearchIgnoresCase | src/components/tables/model-evaluations-table.tsx:202-203 | lower-casing the search text does not change which runs match |
| ModelEvaluationsTable.SelectView | src/components/tables/model-evaluations-table.tsx:151-198 | the experiments error before the runs error, both with their CORS flag; no error view without an error. Then the loading view exactly while either query loads. Otherwise the filtered table with the total run count (0 for none) |
| AdminsTable.Matching | src/components/tables/admins-table.tsx:48 | exactly the admins whose email contains the search; none for missing data |
| AdminsTable.Render | src/components/tables/admins-table.tsx:32-50 | the spinner exactly while loading; otherwise the matching admins |
| AdminsTable.MatchingIsSubsequence | src/components/tables/admins-table.tsx:48 | the search keeps the admins in order |
| AdminsTable.EmptySearchKeepsAll | src/components/tables/admins-table.tsx:48 | an empty search keeps every admin |
| AdminsTable.SearchIsCaseSensitive | src/components/tables/admins-table.tsx:48 | every admin found has each character of the search in its email, so an email without upper-case letters is never found by a search with one ("A" does not find "a") |
| ApiFetch.FailureText | src/external/api.ts:24-31 | 401 gives the fixed re-login message. Otherwise the body's message if truthy, else "Something went wrong". Never empty |
| ApiFetch.FailureError | src/external/api.ts:28-31 | the thrown Error carries that message and no status field |
| ApiFetch.FailureErrorWithStatus | src/external/api.ts:28-31 | the same message, with the response status attached |
| TokenForm.StatusMessage | src/components/forms/token-form.tsx:34-37 | a table entry exactly for 404 and 500 |
| TokenForm.ErrorMessage | src/components/forms/token-form.tsx:74 | the table entry, else a non-empty error message, else the fallback; never empty |
| TokenForm.StatusTableUnreachable | src/components/forms/token-form.tsx:74 | on what the API helper throws, the message is that error's text; a 404 reads "Something went wrong", not "Invalid user id." |
| TokenForm.StatusTableWithStatus | src/components/forms/token-form.tsx:74 | with the status attached, 404 and 500 read as the table says whatever the body |
| TokenForm.Form.constructor | src/components/forms/token-form.tsx:51-56 | empty id, not loading, no root error |
| TokenForm.Form.EditId | src/components/forms/token-form.tsx:96 | the field takes the typed value; nothing else changes |
| TokenForm.Form.BeginSubmit | src/components/forms/token-form.tsx:65-68 | every submit clears the root error. An invalid id sends nothing and changes nothing else. A valid one turns loading on and sends `user_id` |
| TokenForm.Form.FinishSubmit | src/components/forms/token-form.tsx:68-79 | success toasts the submitted id and resets the form. A failure toasts the resolved message, sets it as the root error and keeps the id. Loading is off either way |
| TokenForm.Form.OnSubmit | src/components/forms/token-form.tsx:65-80 | a whole submit: an invalid id sends nothing and clears the root error. A valid one sends `user_id`. Success toasts the id and resets the form. A failure toasts the resolved message, sets it as the root error and keeps the id. Not loading afterwards |
| AdminForm.StatusMessage | src/components/forms/admin-form.tsx:40-44 | a table entry exactly for 400, 409 and 500 |
| AdminForm.ErrorMessage | src/components/forms/admin-form.tsx:68 | the table entry, else a non-empty error message, else the fallback; never empty |
| AdminForm.StatusTableUnreachable | src/components/forms/admin-form.tsx:68 | on what the API helper throws, the message is that error's text; a 409 reads "Something went wrong", not the duplicate-admin text |
| AdminForm.StatusTableWithStatus | src/components/forms/admin-form.tsx:68 | with the status attached, 400, 409 and 500 read as the table says whatever the body |
| AdminForm.Form.constructor | src/components/forms/admin-form.tsx:51-56 | empty email, not loading, no root error |
| AdminForm.Form.EditEmail | src/components/forms/admin-form.tsx:97 | the field takes the typed value; nothing else changes |
| AdminForm.Form.BeginSubmit | src/components/forms/admin-form.tsx:59-62 | every submit clears the root error. An invalid email sends nothing and changes nothing else. A valid one turns loading on and sends the invite |
| AdminForm.Form.FinishSubmit | src/components/forms/admin-form.tsx:62-73 | success toasts the submitted email and resets the form. A failure toasts the resolved message, sets it as the root error and keeps the email. Loading is off either way |
| AdminForm.Form.OnSubmit | src/components/forms/admin-form.tsx:59-74 | a whole submit: an invalid email sends nothing and clears the root error. A valid one sends the invite. Success toasts the email and resets the form. A failure toasts the resolved message and sets it as the root error. Not loading afterwards |
| UserForm.StatusMessage | src/components/forms/user-form.tsx:44-47 | a table entry exactly for 409 and 422 |
| UserForm.ResolveError | src/components/forms/user-form.tsx:68-89 | Non-JSON (or `null`) text gives status 0 and the raw text. JSON gives its status, then the table entry, else its message even when empty (`??`), else the fallback. A zero or missing status is logged |
| UserForm.PlainMessageShownVerbatim | src/components/forms/user-form.tsx:72-82 | non-JSON error text, and `null`, are shown as they are with status 0 and logged; a 409 or 422 from the API helper with an empty body reads "Something went wrong" |
| UserForm.StatusTableWithJsonError | src/components/forms/user-form.tsx:72-82 | had the thrown text been the JSON `{ status, message }`, 409 and 422 would read as the table says, with the status kept and nothing logged |
| UserForm.ResolvedMessageSource | src/components/forms/user-form.tsx:79-82 | an empty message comes only from an empty raw text or an empty API message |
| UserForm.InputFormats | src/components/forms/user-form.tsx:198-203 | no input format is offered for an unknown model type |
| UserForm.OutputFormats | src/components/forms/user-form.tsx:224-230 | no output format is offered for an unknown model type |
| UserForm.FormatOffers | src/components/forms/user-form.tsx:188-230 | with no model type nothing is offered. Each model type offers one non-empty input and one non-empty output format, and the two types' formats are disjoint |
| UserForm.Form.constructor | src/components/forms/user-form.tsx:93-102 | every field empty, not loading, no root error |
| UserForm.Form.SelectModelType | src/components/forms/user-form.tsx:161-164 | choosing a model type clears the input format; the output format and other fields stay |
| UserForm.Form.EditEmail | src/components/forms/user-form.tsx:138 | the email field takes the typed value; nothing else changes |
| UserForm.Form.EditUsername | src/components/forms/user-form.tsx:148 | the username field takes the typed value; nothing else changes |
| UserForm.Form.SelectInputFormat | src/components/forms/user-form.tsx:186 | the input format takes the chosen value; nothing else changes |
| UserForm.Form.SelectOutputFormat | src/components/forms/user-form.tsx:217 | the output format takes the chosen value; nothing else changes |
| UserForm.Form.BeginSubmit | src/components/forms/user-form.tsx:104-107 | every submit clears the root error. Only a form the schema accepts turns loading on and sends its five fields; otherwise nothing else changes |
| UserForm.Form.FinishSubmit | src/components/forms/user-form.tsx:62-113 | success toasts and resets every field. A failure toasts the resolved message, sets it as the root error and keeps the fields. Loading is off either way |
| UserForm.Form.OnSubmit | src/components/forms/user-form.tsx:104-114 | a whole submit: only a valid form sends its five fields, and an invalid one clears the root error. Success toasts and resets every field. A failure toasts the resolved message, sets it as the root error and keeps the fields |
| LoginForm.ThrownMessage | src/components/forms/login-form.tsx:42-50 | the two known error codes map to their messages, and anything else to the unexpected-error text |
| LoginForm.Form.constructor | src/components/forms/login-form.tsx:18-21 | empty email and password, no error, not loading, no navigation |
| LoginForm.Form.EditEmail | src/components/forms/login-form.tsx:78 | the email field takes the typed value; nothing else changes |
| LoginForm.Form.EditPassword | src/components/forms/login-form.tsx:101 | the password field takes the typed value; nothing else changes |
| LoginForm.Form.BeginSubmit | src/components/forms/login-form.tsx:24-36 | empty fields set the missing-credentials message and call nothing. Otherwise sign-in is called, loading is on and the error cleared while it is awaited. Nothing stops a second start while loading |
| LoginForm.Form.FinishSubmit | src/components/forms/login-form.tsx:36-53 | a user navigates to "/". No user gives the wrong-credentials message. A throw gives its mapped message. Loading is off either way |
| LoginForm.Form.HandleSubmit | src/components/forms/login-form.tsx:24-54 | the two halves in turn: sign-in is called exactly when both fields are set. A user navigates to "/". No user gives the wrong-credentials message. A throw gives its mapped message. Not loading afterwards |
| LoginForm.Form.FlushError | src/components/forms/login-form.tsx:56-59 | a pending error is toasted once and cleared |
| SetPasswordCard.Validate | src/components/set-password-card.tsx:37-50 | the pair passes exactly when both passwords are set, the first has at least 8 characters, and they are equal. Otherwise the message of the first failing check |
| SetPasswordCard.HintsAgreeWithValidation | src/components/set-password-card.tsx:30-31 | a pair that passes shows no hint, and a pair showing a hint fails |
| SetPasswordCard.Card.constructor | src/components/set-password-card.tsx:16-28 | the invite email kept, both fields empty and untouched, no error, not loading |
| SetPasswordCard.Card.EditPassword1 | src/components/set-password-card.tsx:109 | the first field takes the typed value; nothing else changes |
| SetPasswordCard.Card.EditPassword2 | src/components/set-password-card.tsx:137 | the second field takes the typed value; nothing else changes |
| SetPasswordCard.Card.Blur | src/components/set-password-card.tsx:110 | leaving a field marks it touched |
| SetPasswordCard.Card.BeginSubmit | src/components/set-password-card.tsx:33-64 | a failed check sets its message and sends nothing. Otherwise loading is on while the request with the email and the first password is awaited |
| SetPasswordCard.Card.FinishSubmit | src/components/set-password-card.tsx:66-83 | only an ok, readable response navigates to "/"; every other outcome sets "Error al crear usuario". Loading is off either way |
| SetPasswordCard.Card.HandleSubmit | src/components/set-password-card.tsx:33-84 | the two halves in turn: a failed check sets its message and sends nothing. Otherwise it sends the email and the first password, and only an ok, readable response navigates to "/"; every other outcome sets "Error al crear usuario". Not loading afterwards |
| SetPasswordCard.Card.FlushError | src/components/set-password-card.tsx:86-89 | a pending error is toasted once and cleared |
| Middleware.ProxyHeaders | src/middleware.ts:71-80 | a bearer Authorization header is set. The token goes in as the Cookie header only when there is no token cookie. Every other header is kept |
| Middleware.Decide | src/middleware.ts:4-90 | misconfiguration comes first. Then the login redirect for anonymous non-public paths. Then, for a signed-in session on MLflow paths, a 503 without a tracking URI or else a rewrite to URI + sub-path with the search and the proxy headers. Otherwise pass-through |
| Middleware.PublicPathIsPrefixTest | src/middleware.ts:45 | the public-path test is a prefix test: every path starting with "/login" or "/set-password" is public, "/users/login" is not |
| Middleware.SubPathSpec | src/middleware.ts:66 | a leading "/mlflow-proxy" is stripped exactly, and a path without it is forwarded unchanged |
| Middleware.InnerPrefixRemoved | src/middleware.ts:52-66 | the removal is not anchored: "/ajax-api/mlflow-proxy/x" is forwarded as "/ajax-api/x" |
| Middleware.MisconfigurationFirst | src/middleware.ts:12-15 | a missing Supabase URL gives 500 whatever the user, path or session |
| Middleware.SignedInOutsideMlflow | src/middleware.ts:45-89 | a signed-in user outside MLflow paths always passes through |
| AuthorizationToggle.FailureText | src/components/authorization-toggle.tsx:44-52 | JSON error text gives "Error al actualizar: " + its message (or "undefined"). Otherwise the longer prefix + the Error's message or "Error desconocido" |
| AuthorizationToggle.FailurePrefixes | src/components/authorization-toggle.tsx:47-52 | the two toasts are told apart by their prefix |
| AuthorizationToggle.Toggle.constructor | src/components/authorization-toggle.tsx:16-21 | not loading, and the switch shows the prop |
| AuthorizationToggle.Toggle.BeginToggle | src/components/authorization-toggle.tsx:24-32 | loading and disabled, the switch already shows the requested value, and the PATCH carries the user id and that value |
| AuthorizationToggle.Toggle.FinishToggle | src/components/authorization-toggle.tsx:33-55 | success keeps the new value and toasts granted or revoked. A failure reverts to the prop and toasts the failure text. Not loading, and enabled again, afterwards |
| AuthorizationToggle.Toggle.HandleToggle | src/components/authorization-toggle.tsx:24-56 | the switch ends at the requested value on success and at the prop on failure, with the matching toast |

## Left out

- The DuckDB engine, the worker, bundle selection, `registerFileBuffer` and SQL. The query result is an input whose shape is described in `DuckDbHook.QueryResult`.
- DuckDbHook.DuckDbHook.Init: the interleaving of teardown with the awaits of start-up. Teardown is modelled as running before or after a whole start-up call, not between its awaits.
- DuckDbHook: the record-batch structure. Only the first batch's buffers are read by the source, and the model keeps only those.
- Float64 arithmetic: a JavaScript number is an exact real (or NaN or an infinity), so rounding and overflow are not modelled. The lead-time sum of src/components/dashboard.tsx:76-78 could overflow to Infinity in the source, and `Dashboard.AverageBetween` holds over the reals only.
- Dashboard.Render: `Math.max(...)` at src/components/dashboard.tsx:80-82 spreads every lead time into call arguments, which throws a RangeError for a very long token list. The model always returns the cards.
- Float32 decoding of the input bytes. `ParquetViewer.DrawCanvas` takes the decoded values as a parameter of type `real`. NaN and infinite pixel values are therefore not modelled, and neither is the clamping of image bytes to 0..255.
- `Js.ToNumber`: objects are converted to NaN. The conversion of objects through `toString` and `valueOf`, and the parsing of strings into numbers, are not modelled; a string carries the number it parses to.
- Number formatting: `toFixed`, `toLocaleString`, and percentage text.
- Case folding: `toLowerCase` is ASCII-only here.
- The length of a password is counted in code points, not UTF-16 code units.
- The viewer destructures `loadedFiles` and `loadParquetFiles` (src/components/parquet-viewer.tsx:471), which the hook does not return, so both are `undefined`. A drop calls the undefined `loadParquetFiles` (line 475) and throws, so no rows are ever loaded. Rendering the table screen reads `loadedFiles.length` (line 528) and throws, so as written that screen cannot be shown. The file chips and the drop handler are not modelled. `ParquetViewer.ScreenPriority` describes the screens the viewer selects from the fields the hook does return, as if the table screen rendered.
- The canvas element and its 2D context are reduced to one flag, `hasContext`.
- JSX layout, pagination, the drop zone's file handling, dialogs and icons are not modelled.
- `fetch`, Supabase authentication, the session and query invalidation are not modelled; each is an outcome parameter of the operation that awaits it.
- The middleware's matcher regular expression, Supabase cookie handling and URL construction are not modelled.
- Header names are compared exactly; HTTP header names are case-insensitive.
- Schema validation (e-mail, UUID) is not modelled; it enters as a boolean `emailValid` or `idValid`.
- `JSON.parse` is abstract: it is the outcome `Js.JsonParse`. A `message` field that is missing, `null` or not a string is the single case `None`. The authorization toggle's toast then reads "undefined" where the source prints "null" or the value itself. The user form then falls back to its default text where the source's `??` keeps a non-null, non-string value.
- Dashboard.ModelDistribution: a model type named like an inherited object property (for example "constructor") does not start from 0 in the source's `{}` accumulator. The model counts it like any other type.
- ArtifactDrawer.Drawer.ToggleDir: for the same reason, a path named like an inherited property reads as cached in the source. The model treats it as absent.
- The 401 `signOut` side effect of the API helper is not modelled.
- The serialisation of errors thrown from a server action is not modelled. Errors are modelled as they are thrown.
- LoginForm.ThrownMessage: a thrown `null` or `undefined` would make the source's `err.message` itself throw. The model maps it to the unexpected-error text.
- AuthorizationToggle.Toggle.FinishToggle: a failure of `invalidateQueries` after a successful PATCH is folded into `Failed`, as in the source's single `try`.
- Console logging is not modelled, except for whether the user form logs.
- React re-rendering and the batching of state updates are not modelled.

## Findings

| source | as written | input that shows it | evidently intended | confidence | as-written member | corrected member |
|---|---|---|---|---|---|---|
| src/components/forms/token-form.tsx:74 | `errorMessages[error.status]` reads a status that the `Error` thrown at src/external/api.ts:28-31 never carries, so the table never applies | a 404 response with an empty body shows "Something went wrong" | a 404 shows "Invalid user id." and a 500 the server-error text | high (not executed) | TokenForm.StatusTableUnreachable | TokenForm.StatusTableWithStatus |
| src/components/forms/admin-form.tsx:68 | the same lookup on the same status-less `Error` | a 409 response with an empty body shows "Something went wrong" | 400, 409 and 500 show the table's texts | high (not executed) | AdminForm.StatusTableUnreachable | AdminForm.StatusTableWithStatus |
| src/components/forms/user-form.tsx:73-82 | `onError` parses the thrown message as JSON to read `status` and `message`, but the API helper at src/external/api.ts:28-31 throws plain text, so the 409/422 table never applies | a 409 response with an empty body shows "Something went wrong" | 409 shows the duplicate-user text and 422 the invalid-input text | high (not executed) | UserForm.PlainMessageShownVerbatim | UserForm.StatusTableWithJsonError |

=== FILE: admin_form.dfy ===
/** The form that invites an admin by email. */
module AdminForm {
  import opened Wrappers
  import opened Js
  import opened ApiFetch

  const InvalidEmail: string := "Invalid email address."
  const ServerError: string := "Server error. Please try again later."
  const AlreadyAdmin: string := "An admin with this email already exists."
  const GrantFailed: string := "Failed to grant admin permissions"
  const InvitedPrefix: string := "Invite sent successfully to "

  /** The form's table of messages by status code. */
  function StatusMessage(status: Option<int>): (r: Option<string>)
    ensures r.Some? <==> status == Some(400) || status == Some(409) || status == Some(500)
  {
    if status == Some(400) then Some(InvalidEmail)
    else if status == Some(500) then Some(ServerError)
    else if status == Some(409) then Some(AlreadyAdmin)
    else None
  }

  /** `errorMessages[error.status] || error.message || fallback`: an empty message falls through. */
  function ErrorMessage(e: ApiError): (m: string)
    ensures m != ""
    ensures StatusMessage(e.status).Some? ==> m == StatusMessage(e.status).value
    ensures StatusMessage(e.status).None? && TruthyText(e.message) ==> m == e.message.value
    ensures StatusMessage(e.status).None? && !TruthyText(e.message) ==> m == GrantFailed
  {
    if StatusMessage(e.status).Some? then StatusMessage(e.status).value
    else if TruthyText(e.message) then e.message.value
    else GrantFailed
  }

  /**
   * As written, the status table never applies to what the API helper
   * throws: a 409 with an empty body reads "Something went wrong" instead
   * of "An admin with this email already exists.".
   */
  lemma StatusTableUnreachable(status: int, bodyMessage: Option<string>)
    ensures ErrorMessage(FailureError(status, bodyMessage)) == FailureText(status, bodyMessage)
    ensures ErrorMessage(FailureError(409, None)) == SomethingWentWrong != AlreadyAdmin
  {
  }

  /** With the status attached to the thrown value, 400, 409 and 500 read as the table says whatever the body. */
  lemma StatusTableWithStatus(bodyMessage: Option<string>)
    ensures ErrorMessage(FailureErrorWithStatus(400, bodyMessage)) == InvalidEmail
    ensures ErrorMessage(FailureErrorWithStatus(409, bodyMessage)) == AlreadyAdmin
    ensures ErrorMessage(FailureErrorWithStatus(500, bodyMessage)) == ServerError
  {
  }

  /** The request body `{ email }`. */
  datatype InviteRequest = InviteRequest(email: string)

  class Form {
    var email: string
    var loading: bool
    var rootError: Option<string>

    constructor ()
      ensures email == "" && !loading && rootError == None
    {
      email := "";
      loading := false;
      rootError := None;
    }

    method EditEmail(value: string)
      modifies this
      ensures email == value && loading == old(loading) && rootError == old(rootError)
    {
      email := value;
    }

    /**
     * The first half of a submit, as the form library runs it: the root
     * error is cleared on every submit; when the email passes the check
     * (`emailValid`) `loading` turns on and the request carries the email,
     * otherwise nothing else changes.
     */
    method BeginSubmit(emailValid: bool) returns (request: Option<InviteRequest>)
      modifies this
      ensures request.Some? <==> emailValid
      ensures emailValid ==> request == Some(InviteRequest(email)) && loading
      ensures !emailValid ==> loading == old(loading)
      ensures email == old(email) && rootError == None
    {
      rootError := None;
      if !emailValid {
        return None;
      }
      loading := true;
      request := Some(InviteRequest(email));
    }

    /**
     * The second half, once the request for `sent` has settled: success
     * toasts the submitted email and resets the form, a failure keeps what
     * is in the field and sets the root error to the toasted message.
     * `loading` is off either way.
     */
    method FinishSubmit(sent: InviteRequest, failure: Option<ApiError>) returns (toast: Toast)
      modifies this
      ensures !loading
      ensures failure.None? ==> toast == SuccessToast(InvitedPrefix + sent.email) && email == "" && rootError == None
      ensures failure.Some? ==>
        && toast == ErrorToast(ErrorMessage(failure.value))
        && rootError == Some(ErrorMessage(failure.value)) && email == old(email)
    {
      if failure.None? {
        toast := SuccessToast(InvitedPrefix + sent.email);
        email := "";
        rootError := None;
      } else {
        var message := ErrorMessage(failure.value);
        rootError := Some(message);
        toast := ErrorToast(message);
      }
      loading := false;
    }

    /** A whole submit with no edit while the request is pending: the two halves in turn. */
    method OnSubmit(emailValid: bool, failure: Option<ApiError>) returns (request: Option<InviteRequest>, toast: Option<Toast>)
      modifies this
      ensures request.Some? <==> emailValid
      ensures !emailValid ==> toast == None && email == old(email) && loading == old(loading) && rootError == None
      ensures emailValid ==> request == Some(InviteRequest(old(email))) && !loading
      ensures emailValid && failure.None? ==>
        toast == Some(SuccessToast(InvitedPrefix + old(email))) && email == "" && rootError == None
      ensures emailValid && failure.Some? ==>
        && toast == Some(ErrorToast(ErrorMessage(failure.value)))
        && rootError == Some(ErrorMessage(failure.value)) && email == old(email)
    {
      request := BeginSubmit(emailValid);
      toast := None;
      if request.Some? {
        var shown := FinishSubmit(request.value, failure);
        toast := Some(shown);
      }
    }
  }
}

=== FILE: admins_table.dfy ===
/** The admins page's table with its email search. */
module AdminsTable {
  import opened Wrappers
  import opened Strings
  import opened Seqs

  /** The admin field the search reads. */
  datatype Admin = Admin(email: string)

  /** The page below the invite form: a spinner while loading, else the search box and the table. */
  datatype View = Spinner | SearchAndTable(rows: seq<Admin>)

  /** `data?.filter((admin) => admin.email.includes(search)) ?? []`: a case-sensitive substring search. */
  function Matching(data: Option<seq<Admin>>, search: string): (r: seq<Admin>)
    ensures data.None? ==> r == []
    ensures data.Some? ==> |r| <= |data.value|
    ensures data.Some? ==> forall a :: a in r <==> a in data.value && Contains(a.email, search)
  {
    if data.None? then [] else Filter((admin: Admin) => Contains(admin.email, search), data.value)
  }

  function Render(data: Option<seq<Admin>>, isLoading: bool, search: string): (v: View)
    ensures v.Spinner? <==> isLoading
    ensures v.SearchAndTable? ==> v.rows == Matching(data, search)
  {
    if isLoading then Spinner else SearchAndTable(Matching(data, search))
  }

  /** The search keeps the admins in their order. */
  lemma MatchingIsSubsequence(data: seq<Admin>, search: string)
    ensures IsSubsequence(Matching(Some(data), search), data)
  {
    FilterIsSubsequence((admin: Admin) => Contains(admin.email, search), data);
  }

  /** An empty search keeps every admin. */
  lemma EmptySearchKeepsAll(data: seq<Admin>)
    ensures Matching(Some(data), "") == data
  {
    forall admin | admin in data
      ensures Contains(admin.email, "")
    {
      ContainsEmpty(admin.email);
    }
    FilterKeepsAll((admin: Admin) => Contains(admin.email, ""), data);
  }

  /**
   * The search is case-sensitive: every admin it finds has each character
   * of the search in its email, so an email without upper-case letters is
   * never found by a search with one; in particular "A" does not find "a".
   */
  lemma SearchIsCaseSensitive(data: seq<Admin>, search: string)
    ensures forall a, c :: a in Matching(Some(data), search) && c in search ==> c in a.email
    ensures (exists c :: c in search && 'A' <= c <= 'Z') ==>
      forall a: Admin :: (forall c :: c in a.email ==> !('A' <= c <= 'Z')) ==> a !in Matching(Some(data), search)
    ensures Matching(Some([Admin("a")]), "A") == []
  {
    forall a | a in Matching(Some(data), search)
      ensures forall c :: c in search ==> c in a.email
    {
      ContainsKeepsChars(a.email, search);
    }
    assert 'A' in "A";
  }
}

=== FILE: api_fetch.dfy ===
/**
 * The error the API helper throws for a failed response, as the forms see
 * it when they read `status` and `message` off the thrown value, and the
 * toast a form pops up.
 */
module ApiFetch {
  import opened Wrappers
  import opened Js

  /** The two fields a form reads from a thrown value; a field the value lacks is `None`. */
  datatype ApiError = ApiError(status: Option<int>, message: Option<string>)

  /** A toast: a success or an error notification with its text. */
  datatype Toast = SuccessToast(text: string) | ErrorToast(text: string)

  const Unauthorized: string := "Unauthorized, please log in again"
  const SomethingWentWrong: string := "Something went wrong"

  /** The message `apiFetch` puts in its Error: fixed for 401, else the body's message or a fallback. */
  function FailureText(status: int, bodyMessage: Option<string>): (m: string)
    ensures m != ""
    ensures status == 401 ==> m == Unauthorized
    ensures status != 401 && TruthyText(bodyMessage) ==> m == bodyMessage.value
    ensures status != 401 && !TruthyText(bodyMessage) ==> m == SomethingWentWrong
  {
    if status == 401 then Unauthorized
    else if TruthyText(bodyMessage) then bodyMessage.value
    else SomethingWentWrong
  }

  /**
   * What `apiFetch` throws for a non-ok response with status `status`: an
   * `Error` with a message and no `status` field.
   */
  function FailureError(status: int, bodyMessage: Option<string>): (e: ApiError)
    ensures e.status.None?
    ensures e.message == Some(FailureText(status, bodyMessage))
  {
    ApiError(None, Some(FailureText(status, bodyMessage)))
  }

  /** The thrown value the forms are written for: the same message, with the response's status attached. */
  function FailureErrorWithStatus(status: int, bodyMessage: Option<string>): (e: ApiError)
    ensures e.status == Some(status)
    ensures e.message == FailureError(status, bodyMessage).message
  {
    ApiError(Some(status), Some(FailureText(status, bodyMessage)))
  }
}

=== FILE: artifact_drawer.dfy ===
/**
 * The run-artifact drawer: the lazily loaded directory tree of a run's
 * artifacts with its set of expanded directories and its cache of nested
 * listings, the file-size label and the names shown and downloaded.
 */
module ArtifactDrawer {
  import opened Wrappers
  import opened Js

  /** One listed artifact; a missing `file_size` is `None`. */
  datatype Artifact = Artifact(path: string, isDir: bool, fileSize: Option<real>)

  // ---------------------------------------------------------------------
  // formatFileSize

  /** The label `formatFileSize` builds: a unit and the number printed before it. */
  datatype SizeLabel = NoSize | InBytes(bytes: real) | InKB(kb: real) | InMB(mb: real)

  const KiB: real := 1024.0
  const MiB: real := 1024.0 * 1024.0

  /** `formatFileSize`: empty for no size, bytes below 1024, kilobytes below 1024 * 1024, megabytes above. */
  function FormatFileSize(bytes: Option<real>): (r: SizeLabel)
    ensures bytes.None? <==> r.NoSize?
    ensures r.InBytes? <==> bytes.Some? && bytes.value < KiB
    ensures r.InKB? <==> bytes.Some? && KiB <= bytes.value < MiB
    ensures r.InMB? <==> bytes.Some? && MiB <= bytes.value
  {
    if bytes.None? then NoSize
    else if bytes.value < 1024.0 then InBytes(bytes.value)
    else if bytes.value < 1024.0 * 1024.0 then InKB(bytes.value / 1024.0)
    else InMB(bytes.value / (1024.0 * 1024.0))
  }

  /** The byte count a label stands for, before `toFixed(1)` rounds the printed number. */
  function LabelBytes(l: SizeLabel): real
    requires !l.NoSize?
  {
    match l
    case InBytes(b) => b
    case InKB(k) => k * 1024.0
    case InMB(m) => m * (1024.0 * 1024.0)
  }

  /**
   * The label loses nothing but the rounding: scaling the printed number
   * back by its unit gives the size, and a scaled number lies in [1, 1024)
   * for kilobytes and is at least 1 for megabytes.
   */
  lemma FormatFileSizeRoundTrip(bytes: real)
    ensures LabelBytes(FormatFileSize(Some(bytes))) == bytes
    ensures FormatFileSize(Some(bytes)).InKB? ==> 1.0 <= FormatFileSize(Some(bytes)).kb < 1024.0
    ensures FormatFileSize(Some(bytes)).InMB? ==> 1.0 <= FormatFileSize(Some(bytes)).mb
  {
  }

  // ---------------------------------------------------------------------
  // Names

  /** `path.split("/").pop()`: the text after the last "/", or all of it without one. */
  function LastSegment(path: string): (r: string)
    ensures '/' !in r
    ensures |r| <= |path| && r == path[|path| - |r|..]
    ensures |r| < |path| ==> path[|path| - |r| - 1] == '/'
  {
    if path == [] then []
    else if path[|path| - 1] == '/' then []
    else LastSegment(path[..|path| - 1]) + [path[|path| - 1]]
  }

  /** The name shown in the tree: the last segment, or the whole path when that is empty. */
  function DisplayName(path: string): string {
    var name := LastSegment(path);
    if name != "" then name else path
  }

  /** The download file name: the last segment, or "artifact" when that is empty. */
  function DownloadName(path: string): string {
    var name := LastSegment(path);
    if name != "" then name else "artifact"
  }

  /**
   * The last segment of a path ending in "/" is empty, so such a directory
   * is shown by its whole path and downloaded as "artifact"; otherwise both
   * names are that segment, which holds no "/".
   */
  lemma NamesSpec(path: string)
    ensures |path| > 0 && path[|path| - 1] == '/' ==> DisplayName(path) == path && DownloadName(path) == "artifact"
    ensures |path| > 0 && path[|path| - 1] != '/' ==>
      DisplayName(path) == DownloadName(path) == LastSegment(path) != "" && '/' !in DownloadName(path)
    ensures path == "" ==> DisplayName(path) == "" && DownloadName(path) == "artifact"
  {
  }

  /** Appending a segment without "/" after a "/" makes it the last segment. */
  lemma {:induction false} LastSegmentOfJoin(dir: string, name: string)
    requires '/' !in name
    ensures LastSegment(dir + "/" + name) == name
  {
    if name != [] {
      var init := name[..|name| - 1];
      assert (dir + "/" + name)[..|dir + "/" + name| - 1] == dir + "/" + init;
      LastSegmentOfJoin(dir, init);
      assert init + [name[|name| - 1]] == name;
    } else {
      assert dir + "/" + name == dir + "/";
    }
  }

  // ---------------------------------------------------------------------
  // Expanded directories

  /** The expanded set after `toggleDir(path)`: removed when present, added when absent. */
  function Toggled(expanded: set<string>, path: string): (r: set<string>)
    ensures path in r <==> path !in expanded
    ensures forall p :: p != path ==> (p in r <==> p in expanded)
  {
    if path in expanded then expanded - {path} else expanded + {path}
  }

  /** Toggling the same directory twice restores the expanded set. */
  lemma ToggleTwice(expanded: set<string>, path: string)
    ensures Toggled(Toggled(expanded, path), path) == expanded
  {
  }

  /** How a listing request ended. */
  datatype FetchOutcome =
    | NotOk(statusText: string)           // the response was not ok; its status as printed
    | Threw(thrown: Thrown)                // the URL, fetch or body parsing threw
    | Listed(files: Option<seq<Artifact>>) // the parsed body; `files` may be missing

  const FetchFailedPrefix: string := "Failed to fetch artifacts: "
  const FetchFailedDefault: string := "Failed to fetch artifacts"

  /** The message a failed request records for the root listing. */
  function FailureMessage(outcome: FetchOutcome): (m: string)
    requires !outcome.Listed?
    ensures outcome.NotOk? ==> m == FetchFailedPrefix + outcome.statusText
    ensures outcome.Threw? && outcome.thrown.NonError? ==> m == FetchFailedDefault
  {
    match outcome
    case NotOk(status) => FetchFailedPrefix + status
    case Threw(t) => MessageOr(t, FetchFailedDefault)
  }

  /** What the drawer's body shows. */
  datatype Panel = LoadingPanel | ErrorPanel | EmptyPanel | TreePanel

  function PanelOf(loading: bool, error: Option<string>, artifacts: seq<Artifact>): (p: Panel)
    ensures p == LoadingPanel <==> loading
    ensures p == ErrorPanel <==> !loading && TruthyText(error)
    ensures p == TreePanel <==> !loading && !TruthyText(error) && |artifacts| > 0
    ensures p == EmptyPanel <==> !loading && !TruthyText(error) && |artifacts| == 0
  {
    if loading then LoadingPanel
    else if TruthyText(error) then ErrorPanel
    else if |artifacts| == 0 then EmptyPanel
    else TreePanel
  }

  /** The drawer's state for one run. */
  class Drawer {
    const runId: string
    var artifacts: seq<Artifact>
    var loading: bool
    var error: Option<string>
    var expandedDirs: set<string>
    var nestedArtifacts: map<string, seq<Artifact>>

    constructor (runId: string)
      ensures this.runId == runId
      ensures artifacts == [] && !loading && error == None
      ensures expandedDirs == {} && nestedArtifacts == map[]
    {
      this.runId := runId;
      artifacts := [];
      loading := false;
      error := None;
      expandedDirs := {};
      nestedArtifacts := map[];
    }

    /**
     * The start of `fetchArtifacts(path)`: without a run id nothing
     * happens and no request is made. Otherwise the request goes out; only
     * the root listing ("" path) turns `loading` on and clears `error`
     * while it is awaited, and every listing shown so far stays.
     */
    method BeginFetch(path: string) returns (requested: bool)
      modifies this
      ensures requested <==> runId != ""
      ensures requested && path == "" ==> loading && error == None
      ensures !(requested && path == "") ==> loading == old(loading) && error == old(error)
      ensures artifacts == old(artifacts) && nestedArtifacts == old(nestedArtifacts) && expandedDirs == old(expandedDirs)
    {
      if runId == "" {
        return false;
      }
      requested := true;
      if path == "" {
        loading := true;
        error := None;
      }
    }

    /**
     * The end of `fetchArtifacts(path)`, once the request has settled. The
     * root listing replaces `artifacts` or sets `error`, and `loading` ends;
     * a nested listing is stored under its path, other cached listings
     * untouched, and a nested failure is only logged. A missing `files`
     * field is an empty list.
     */
    method FinishFetch(path: string, outcome: FetchOutcome)
      modifies this
      ensures path == "" ==>
        && !loading
        && nestedArtifacts == old(nestedArtifacts)
        && (outcome.Listed? ==> artifacts == outcome.files.GetOr([]) && error == old(error))
        && (!outcome.Listed? ==> artifacts == old(artifacts) && error == Some(FailureMessage(outcome)))
      ensures path != "" ==>
        && artifacts == old(artifacts) && loading == old(loading) && error == old(error)
        && (outcome.Listed? ==> nestedArtifacts == old(nestedArtifacts)[path := outcome.files.GetOr([])])
        && (!outcome.Listed? ==> nestedArtifacts == old(nestedArtifacts))
      ensures expandedDirs == old(expandedDirs)
    {
      match outcome {
        case Listed(files) =>
          if path != "" {
            nestedArtifacts := nestedArtifacts[path := files.GetOr([])];
          } else {
            artifacts := files.GetOr([]);
          }
        case NotOk(_) =>
          if path == "" {
            error := Some(FailureMessage(outcome));
          }
        case Threw(_) =>
          if path == "" {
            error := Some(FailureMessage(outcome));
          }
      }
      if path == "" {
        loading := false;
      }
    }

    /** `fetchArtifacts(path)` run to completion with no render in between: the two halves in turn. */
    method FetchArtifacts(path: string, outcome: FetchOutcome)
      modifies this
      ensures runId == "" ==>
        artifacts == old(artifacts) && loading == old(loading) && error == old(error) && nestedArtifacts == old(nestedArtifacts)
      ensures runId != "" && path == "" ==>
        && !loading
        && nestedArtifacts == old(nestedArtifacts)
        && (outcome.Listed? ==> artifacts == outcome.files.GetOr([]) && error == None)
        && (!outcome.Listed? ==> artifacts == old(artifacts) && error == Some(FailureMessage(outcome)))
      ensures runId != "" && path != "" ==>
        && artifacts == old(artifacts) && loading == old(loading) && error == old(error)
        && (outcome.Listed? ==> nestedArtifacts == old(nestedArtifacts)[path := outcome.files.GetOr([])])
        && (!outcome.Listed? ==> nestedArtifacts == old(nestedArtifacts))
      ensures expandedDirs == old(expandedDirs)
    {
      var requested := BeginFetch(path);
      if requested {
        FinishFetch(path, outcome);
      }
    }

    /**
     * `toggleDir(path)`: an expanded directory collapses without a
     * request; a collapsed one expands and is listed only when no listing is
     * cached for it (an empty cached listing counts as cached). `fetched`
     * says whether a request was made.
     */
    method ToggleDir(path: string, outcome: FetchOutcome) returns (fetched: bool)
      modifies this
      ensures expandedDirs == Toggled(old(expandedDirs), path)
      ensures fetched <==> path !in old(expandedDirs) && path !in old(nestedArtifacts)
      ensures !fetched ==>
        artifacts == old(artifacts) && loading == old(loading) && error == old(error) && nestedArtifacts == old(nestedArtifacts)
      ensures fetched && runId == "" ==>
        artifacts == old(artifacts) && loading == old(loading) && error == old(error) && nestedArtifacts == old(nestedArtifacts)
      ensures fetched && runId != "" && path == "" ==>
        && !loading && nestedArtifacts == old(nestedArtifacts)
        && (outcome.Listed? ==> artifacts == outcome.files.GetOr([]) && error == None)
        && (!outcome.Listed? ==> artifacts == old(artifacts) && error == Some(FailureMessage(outcome)))
      ensures fetched && runId != "" && path != "" ==>
        && artifacts == old(artifacts) && loading == old(loading) && error == old(error)
        && (outcome.Listed? ==> nestedArtifacts == old(nestedArtifacts)[path := outcome.files.GetOr([])])
        && (!outcome.Listed? ==> nestedArtifacts == old(nestedArtifacts))
    {
      var newExpanded := expandedDirs;
      fetched := false;
      if path in expandedDirs {
        newExpanded := newExpanded - {path};
      } else {
        newExpanded := newExpanded + {path};
        if path !in nestedArtifacts {
          FetchArtifacts(path, outcome);
          fetched := true;
        }
      }
      expandedDirs := newExpanded;
    }

    /**
     * The open effect up to the awaited root request: with a run id it
     * starts the root listing (`loading` on, `error` cleared) and, without
     * waiting for it, forgets the expanded directories and the cached
     * listings; closed or without a run id nothing changes.
     */
    method BeginOpen(open: bool) returns (requested: bool)
      modifies this
      ensures requested <==> open && runId != ""
      ensures requested ==> loading && error == None && expandedDirs == {} && nestedArtifacts == map[]
      ensures !requested ==>
        loading == old(loading) && error == old(error)
        && expandedDirs == old(expandedDirs) && nestedArtifacts == old(nestedArtifacts)
      ensures artifacts == old(artifacts)
    {
      requested := false;
      if open && runId != "" {
        requested := BeginFetch("");
        expandedDirs := {};
        nestedArtifacts := map[];
      }
    }

    /**
     * The effect of opening the drawer run to completion: the start above,
     * then the end of the root listing.
     */
    method Open(open: bool, outcome: FetchOutcome)
      modifies this
      ensures open && runId != "" ==>
        && expandedDirs == {} && nestedArtifacts == map[] && !loading
        && (outcome.Listed? ==> artifacts == outcome.files.GetOr([]) && error == None)
        && (!outcome.Listed? ==> artifacts == old(artifacts) && error == Some(FailureMessage(outcome)))
      ensures !(open && runId != "") ==>
        && artifacts == old(artifacts) && loading == old(loading) && error == old(error)
        && expandedDirs == old(expandedDirs) && nestedArtifacts == old(nestedArtifacts)
    {
      var requested := BeginOpen(open);
      if requested {
        FinishFetch("", outcome);
      }
    }
  }
}

=== FILE: authorization_toggle.dfy ===
/**
 * The switch that grants or revokes a user's authorization: it shows the
 * requested value at once and falls back to the value it was rendered
 * with when the update fails.
 */
module AuthorizationToggle {
  import opened Wrappers
  import opened Js
  import ApiFetch

  const Granted: string := "Usuario autorizado exitosamente"
  const Revoked: string := "Autorización del usuario revocada"
  const UpdateFailedPrefix: string := "Error al actualizar: "
  const AuthorizationFailedPrefix: string := "Error al actualizar la autorización: "
  const UnknownError: string := "Error desconocido"

  /** The success toast for the requested value. */
  function SuccessText(checked: bool): string {
    if checked then Granted else Revoked
  }

  /**
   * The error toast: the thrown error's message (a fixed text for a
   * non-Error value); when that message is JSON (`parsed`) its `message`
   * field is shown as JavaScript prints it ("undefined" when missing),
   * otherwise (or for `null`, whose field read throws) the raw message.
   */
  function FailureText(thrown: Thrown, parsed: JsonParse): (t: string)
    ensures parsed.JsonValue? && parsed.message.Some? ==> t == UpdateFailedPrefix + parsed.message.value
    ensures parsed.JsonValue? && parsed.message.None? ==> t == UpdateFailedPrefix + "undefined"
    ensures !parsed.JsonValue? && thrown.ErrorObject? ==> t == AuthorizationFailedPrefix + thrown.message
    ensures !parsed.JsonValue? && thrown.NonError? ==> t == AuthorizationFailedPrefix + UnknownError
  {
    var errorMessage := MessageOr(thrown, UnknownError);
    if parsed.JsonValue? then UpdateFailedPrefix + (if parsed.message.Some? then parsed.message.value else "undefined")
    else AuthorizationFailedPrefix + errorMessage
  }

  /** The two toasts are told apart by their prefixes, so a reader sees which path produced one. */
  lemma FailurePrefixes(thrown: Thrown, parsed: JsonParse)
    ensures parsed.JsonValue? <==> FailureText(thrown, parsed)[..|UpdateFailedPrefix|] == UpdateFailedPrefix
  {
    var t := FailureText(thrown, parsed);
    if !parsed.JsonValue? {
      assert t[..|UpdateFailedPrefix|][20] == AuthorizationFailedPrefix[20] != UpdateFailedPrefix[20];
    }
  }

  /** How the update ended: saved and the user list refreshed, or something threw. */
  datatype ToggleOutcome = Saved | Failed(thrown: Thrown, parsed: JsonParse)

  /** The PATCH request: the user's status path and `{ is_authorized: checked }`. */
  datatype StatusRequest = StatusRequest(userId: string, isAuthorized: bool)

  class Toggle {
    const userId: string
    const isAuthorized: bool
    var isLoading: bool
    var optimisticValue: bool

    constructor (userId: string, isAuthorized: bool)
      ensures this.userId == userId && this.isAuthorized == isAuthorized
      ensures !isLoading && optimisticValue == isAuthorized
      ensures !Disabled()
    {
      this.userId := userId;
      this.isAuthorized := isAuthorized;
      isLoading := false;
      optimisticValue := isAuthorized;
    }

    /** The switch is disabled while an update is running. */
    predicate Disabled()
      reads this
    {
      isLoading
    }

    /** The start of `handleToggle`: loading, and the switch already shows the requested value. */
    method BeginToggle(checked: bool) returns (request: StatusRequest)
      modifies this
      ensures isLoading && optimisticValue == checked
      ensures Disabled()
      ensures request == StatusRequest(userId, checked)
    {
      isLoading := true;
      optimisticValue := checked;
      request := StatusRequest(userId, checked);
    }

    /**
     * The end of `handleToggle`: success keeps the requested value and
     * toasts it; failure reverts to the rendered `isAuthorized` (not to the
     * value shown before) and toasts the error. Loading ends either way.
     */
    method FinishToggle(checked: bool, outcome: ToggleOutcome) returns (toast: ApiFetch.Toast)
      modifies this
      ensures !isLoading && !Disabled()
      ensures outcome.Saved? ==> optimisticValue == old(optimisticValue) && toast == ApiFetch.SuccessToast(SuccessText(checked))
      ensures outcome.Failed? ==>
        optimisticValue == isAuthorized && toast == ApiFetch.ErrorToast(FailureText(outcome.thrown, outcome.parsed))
    {
      match outcome {
        case Saved =>
          toast := ApiFetch.SuccessToast(SuccessText(checked));
        case Failed(thrown, parsed) =>
          optimisticValue := isAuthorized;
          toast := ApiFetch.ErrorToast(FailureText(thrown, parsed));
      }
      isLoading := false;
    }

    /** `handleToggle` run to completion. */
    method HandleToggle(checked: bool, outcome: ToggleOutcome) returns (request: StatusRequest, toast: ApiFetch.Toast)
      modifies this
      ensures request == StatusRequest(userId, checked)
      ensures !isLoading
      ensures optimisticValue == (if outcome.Saved? then checked else isAuthorized)
      ensures toast == (if outcome.Saved? then ApiFetch.SuccessToast(SuccessText(checked))
                        else ApiFetch.ErrorToast(FailureText(outcome.thrown, outcome.parsed)))
    {
      request := BeginToggle(checked);
      toast := FinishToggle(checked, outcome);
    }
  }
}

=== FILE: dashboard.dfy ===
/**
 * The dashboard's summary cards: user and token counts, the per-model
 * distribution of users and the lead-time statistics of the tokens.
 */
module Dashboard {
  import opened Wrappers
  import opened Seqs

  /** The fields of a user record the dashboard reads. */
  datatype User = User(isAuthorized: bool, modelType: string)

  /** The fields of a token record the dashboard reads; a null or missing lead time is `None`. */
  datatype Token = Token(isActive: bool, leadTime: Option<real>)

  predicate IsAuthorized(u: User) {
    u.isAuthorized
  }

  predicate IsActive(t: Token) {
    t.isActive
  }

  predicate HasLeadTime(t: Token) {
    t.leadTime.Some?
  }

  /** `users || []`: a missing list is empty. */
  function OrEmpty<T>(xs: Option<seq<T>>): (r: seq<T>)
    ensures xs.None? ==> r == []
    ensures xs.Some? ==> r == xs.value
  {
    if xs.Some? then xs.value else []
  }

  /** How many users have model type `m`. */
  function CountModel(users: seq<User>, m: string): (n: nat)
    ensures n <= |users|
    ensures n > 0 <==> exists u :: u in users && u.modelType == m
  {
    if users == [] then 0
    else
      var init := users[..|users| - 1];
      assert forall u :: u in users <==> u in init || u == users[|users| - 1];
      CountModel(init, m) + (if users[|users| - 1].modelType == m then 1 else 0)
  }

  /** The model types that occur among the users. */
  ghost function ModelTypes(users: seq<User>): set<string> {
    set u | u in users :: u.modelType
  }

  /** The sum of the values of a count map. */
  ghost function MapTotal(d: map<string, nat>): nat
    decreases |d.Keys|
  {
    if d == map[] then 0
    else
      var k :| k in d;
      d[k] + MapTotal(d - {k})
  }

  /** The total does not depend on which key is taken first. */
  lemma {:induction false} MapTotalRemove(d: map<string, nat>, k: string)
    requires k in d
    ensures MapTotal(d) == d[k] + MapTotal(d - {k})
    decreases |d.Keys|
  {
    var k' :| k' in d && MapTotal(d) == d[k'] + MapTotal(d - {k'});
    if k' != k {
      assert |(d - {k'}).Keys| < |d.Keys| by {
        assert (d - {k'}).Keys < d.Keys;
      }
      assert |(d - {k}).Keys| < |d.Keys| by {
        assert (d - {k}).Keys < d.Keys;
      }
      MapTotalRemove(d - {k'}, k);
      MapTotalRemove(d - {k}, k');
      assert d - {k'} - {k} == d - {k} - {k'};
    }
  }

  /** Adding one to a key's count, or a new key with count 1, adds one to the total. */
  lemma MapTotalIncrement(d: map<string, nat>, k: string)
    ensures MapTotal(d[k := (if k in d then d[k] else 0) + 1]) == MapTotal(d) + 1
  {
    var d' := d[k := (if k in d then d[k] else 0) + 1];
    MapTotalRemove(d', k);
    if k in d {
      MapTotalRemove(d, k);
      assert d' - {k} == d - {k};
    } else {
      assert d' - {k} == d;
    }
  }

  /** What the accumulator of `modelDistribution` holds after the users in `prefix`. */
  ghost predicate DistributionOf(acc: map<string, nat>, prefix: seq<User>) {
    && acc.Keys == ModelTypes(prefix)
    && (forall m :: m in acc ==> acc[m] == CountModel(prefix, m) > 0)
    && (forall m :: m !in acc ==> CountModel(prefix, m) == 0)
    && MapTotal(acc) == |prefix|
  }

  lemma ModelTypesSnoc(prefix: seq<User>, user: User)
    ensures ModelTypes(prefix + [user]) == ModelTypes(prefix) + {user.modelType}
  {
    assert forall u :: u in prefix + [user] <==> u in prefix || u == user;
  }

  lemma CountModelSnoc(prefix: seq<User>, user: User, m: string)
    ensures CountModel(prefix + [user], m) == CountModel(prefix, m) + (if user.modelType == m then 1 else 0)
  {
    assert (prefix + [user])[..|prefix|] == prefix;
  }

  /** One step of the reduce keeps the accumulator a distribution of the users seen so far. */
  lemma DistributionStep(acc: map<string, nat>, prefix: seq<User>, user: User)
    requires DistributionOf(acc, prefix)
    ensures DistributionOf(Bump(acc, user), prefix + [user])
  {
    KeysStep(acc, prefix, user);
    CountsStep(acc, prefix, user);
    MapTotalIncrement(acc, user.modelType);
  }

  lemma KeysStep(acc: map<string, nat>, prefix: seq<User>, user: User)
    requires acc.Keys == ModelTypes(prefix)
    ensures Bump(acc, user).Keys == ModelTypes(prefix + [user])
  {
    ModelTypesSnoc(prefix, user);
    assert Bump(acc, user).Keys == acc.Keys + {user.modelType};
  }

  lemma CountsStep(acc: map<string, nat>, prefix: seq<User>, user: User)
    requires forall m :: m in acc ==> acc[m] == CountModel(prefix, m) > 0
    requires forall m :: m !in acc ==> CountModel(prefix, m) == 0
    ensures forall m :: m in Bump(acc, user) ==> Bump(acc, user)[m] == CountModel(prefix + [user], m) > 0
    ensures forall m :: m !in Bump(acc, user) ==> CountModel(prefix + [user], m) == 0
  {
    var acc', prefix' := Bump(acc, user), prefix + [user];
    forall m
      ensures m in acc' ==> acc'[m] == CountModel(prefix', m) > 0
      ensures m !in acc' ==> CountModel(prefix', m) == 0
    {
      CountModelSnoc(prefix, user, m);
    }
  }

  /** One step of the reduce: `acc[type] = (acc[type] || 0) + 1`. */
  function Bump(acc: map<string, nat>, user: User): map<string, nat> {
    acc[user.modelType := (if user.modelType in acc then acc[user.modelType] else 0) + 1]
  }

  /** The accumulator the reduce holds after the users in `prefix`, defined from the last user back. */
  function Distribution(prefix: seq<User>): map<string, nat>
    decreases |prefix|
  {
    if prefix == [] then map[] else Bump(Distribution(prefix[..|prefix| - 1]), prefix[|prefix| - 1])
  }

  /** The reduce counts every model type: its keys, values and total are those of `DistributionOf`. */
  lemma {:induction false} DistributionCounts(users: seq<User>)
    ensures DistributionOf(Distribution(users), users)
    decreases |users|
  {
    if users == [] {
      assert ModelTypes(users) == {};
    } else {
      var prefix, last := users[..|users| - 1], users[|users| - 1];
      DistributionCounts(prefix);
      assert prefix + [last] == users;
      DistributionStep(Distribution(prefix), prefix, last);
    }
  }

  /**
   * `modelDistribution`: the reduce that bumps `acc[user.model_type]`,
   * starting each key from `acc[key] || 0`. Its keys are exactly the model
   * types present, each value is that type's user count, and the values
   * add up to the number of users.
   */
  method ModelDistribution(users: seq<User>) returns (acc: map<string, nat>)
    ensures acc.Keys == ModelTypes(users)
    ensures forall m :: m in acc ==> acc[m] == CountModel(users, m) > 0
    ensures MapTotal(acc) == |users|
  {
    acc := map[];
    var i := 0;
    while i < |users|
      invariant 0 <= i <= |users|
      invariant acc == Distribution(users[..i])
    {
      var user := users[i];
      assert users[..i + 1][..i] == users[..i];
      acc := acc[user.modelType := (if user.modelType in acc then acc[user.modelType] else 0) + 1];
      i := i + 1;
    }
    assert users[..i] == users;
    DistributionCounts(users);
  }

  /** The lead times of the tokens that have one, in token order: the i-th is that of the i-th such token. */
  function LeadTimes(tokens: seq<Token>): (r: seq<real>)
    ensures |r| == Count(HasLeadTime, tokens)
    ensures forall x :: x in r <==> exists t :: t in tokens && t.leadTime == Some(x)
    ensures |r| == |Filter(HasLeadTime, tokens)|
    ensures forall i :: 0 <= i < |r| ==> Some(r[i]) == Filter(HasLeadTime, tokens)[i].leadTime
  {
    if tokens == [] then []
    else
      var rest := LeadTimes(tokens[1..]);
      assert forall t :: t in tokens <==> t == tokens[0] || t in tokens[1..];
      if tokens[0].leadTime.Some? then
        assert Filter(HasLeadTime, tokens) == [tokens[0]] + Filter(HasLeadTime, tokens[1..]);
        [tokens[0].leadTime.value] + rest
      else
        assert Filter(HasLeadTime, tokens) == Filter(HasLeadTime, tokens[1..]);
        rest
  }

  /** The figures the cards show. */
  datatype Stats = Stats(
    totalUsers: nat,
    authorizedUsers: nat,
    authPercentage: real,
    distribution: map<string, nat>,
    totalTokens: nat,
    activeTokens: nat,
    showLeadTimeCard: bool,
    avgLeadTime: real,
    maxLeadTime: real)

  datatype View = Spinner | Cards(stats: Stats)

  /** `authorizedUsers / totalUsers * 100`, or 0 without users. */
  function Percentage(part: nat, total: nat): real {
    if total > 0 then (part as real / total as real) * 100.0 else 0.0
  }

  /** `avgLeadTime`: the mean of the lead times, 0 when there are none. */
  function Average(xs: seq<real>): real {
    if |xs| > 0 then SumUpTo(xs, |xs|) / |xs| as real else 0.0
  }

  /** `maxLeadTime`: `Math.max` over the lead times, 0 when there are none. */
  function Largest(xs: seq<real>): real {
    if |xs| > 0 then Max(xs) else 0.0
  }

  /** A percentage of a part of a total lies in [0, 100]. */
  lemma PercentageBounds(part: nat, total: nat)
    requires part <= total
    ensures 0.0 <= Percentage(part, total) <= 100.0
    ensures total == 0 ==> Percentage(part, total) == 0.0
  {
    if total > 0 {
      var q := part as real / total as real;
      assert q * total as real == part as real;
    }
  }

  lemma QuotientBetween(sum: real, n: real, lo: real, hi: real)
    requires n > 0.0 && n * lo <= sum <= n * hi
    ensures lo <= sum / n <= hi
  {
    assert (sum / n) * n == sum;
  }

  /** The mean of a non-empty list lies between its smallest and largest value. */
  lemma AverageBetween(xs: seq<real>)
    requires |xs| > 0
    ensures Min(xs) <= Average(xs) <= Largest(xs)
  {
    SumUpToBounds(xs, |xs|, Min(xs), Max(xs));
    QuotientBetween(SumUpTo(xs, |xs|), |xs| as real, Min(xs), Max(xs));
  }

  /** The latency card is shown exactly when some token has a lead time. */
  lemma LeadTimesNonEmpty(tokens: seq<Token>)
    ensures |LeadTimes(tokens)| > 0 <==> exists t :: t in tokens && t.leadTime.Some?
  {
    if exists t :: t in tokens && t.leadTime.Some? {
      var t :| t in tokens && t.leadTime.Some?;
      assert t.leadTime.value in LeadTimes(tokens);
    }
  }

  /**
   * `Dashboard`: the spinner while either query loads; otherwise the
   * figures over the users and tokens, missing lists counting as empty.
   */
  method Render(users: Option<seq<User>>, tokens: Option<seq<Token>>, isLoadingUsers: bool, isLoadingTokens: bool)
    returns (view: View)
    ensures view.Spinner? <==> isLoadingUsers || isLoadingTokens
    ensures view.Cards? ==>
      var us := OrEmpty(users);
      var ts := OrEmpty(tokens);
      var st := view.stats;
      && st.totalUsers == |us|
      && st.authorizedUsers == Count(IsAuthorized, us) <= st.totalUsers
      && st.authPercentage == Percentage(st.authorizedUsers, st.totalUsers)
      && st.distribution.Keys == ModelTypes(us)
      && (forall m :: m in st.distribution ==> st.distribution[m] == CountModel(us, m))
      && MapTotal(st.distribution) == st.totalUsers
      && st.totalTokens == |ts|
      && st.activeTokens == Count(IsActive, ts) <= st.totalTokens
      && (st.showLeadTimeCard <==> exists t :: t in ts && t.leadTime.Some?)
      && st.avgLeadTime == Average(LeadTimes(ts))
      && st.maxLeadTime == Largest(LeadTimes(ts))
  {
    if isLoadingUsers || isLoadingTokens {
      return Spinner;
    }
    var safeUsers := OrEmpty(users);
    var safeTokens := OrEmpty(tokens);
    var totalUsers := |safeUsers|;
    var authorizedUsers := Count(IsAuthorized, safeUsers);
    var authPercentage := if totalUsers > 0 then (authorizedUsers as real / totalUsers as real) * 100.0 else 0.0;
    var modelDistribution := ModelDistribution(safeUsers);
    var totalTokens := |safeTokens|;
    var activeTokens := Count(IsActive, safeTokens);
    var leadTimes := LeadTimes(safeTokens);
    var showLeadTimeCard := |leadTimes| > 0;
    LeadTimesNonEmpty(safeTokens);
    var avgLeadTime := if showLeadTimeCard then SumUpTo(leadTimes, |leadTimes|) / |leadTimes| as real else 0.0;
    var maxLeadTime := if showLeadTimeCard then Max(leadTimes) else 0.0;
    view := Cards(Stats(totalUsers, authorizedUsers, authPercentage, modelDistribution,
                        totalTokens, activeTokens, showLeadTimeCard, avgLeadTime, maxLeadTime));
  }

  /**
   * The latency card's largest lead time is one of the recorded lead times
   * and at least every one of them.
   */
  lemma LargestLeadTime(tokens: seq<Token>)
    requires exists t :: t in tokens && t.leadTime.Some?
    ensures exists t :: t in tokens && t.leadTime == Some(Largest(LeadTimes(tokens)))
    ensures forall t :: t in tokens && t.leadTime.Some? ==> t.leadTime.value <= Largest(LeadTimes(tokens))
  {
    var xs := LeadTimes(tokens);
    var t :| t in tokens && t.leadTime.Some?;
    assert t.leadTime.value in xs;
    MaxUpToAttained(xs, |xs|);
    forall t | t in tokens && t.leadTime.Some?
      ensures t.leadTime.value <= Largest(xs)
    {
      assert t.leadTime.value in xs;
      var i :| 0 <= i < |xs| && xs[i] == t.leadTime.value;
    }
  }
}

=== FILE: duckdb_hook.dfy ===
/**
 * The model inspector's data hook: it owns an embedded analytical query
 * engine, loads one Parquet file through a fixed projection
 * (`input`, `y_pred`, `y_test`) and turns the columnar query result into
 * row records. The engine itself is abstract: its query result is an input
 * (row count, the first record batch's data/offset buffers of the binary
 * `input` column, and what each column's per-row accessor returns), and the
 * asynchronous steps' outcomes are method parameters.
 */
module DuckDbHook {
  import opened Wrappers
  import opened Js

  /** One decoded row: raw tensor bytes, the prediction scores and the label. */
  datatype MnistRow = MnistRow(input: seq<byte>, yPred: seq<Num>, yTest: Num)

  /** A `Uint8Array` view: the whole underlying `ArrayBuffer` and the view's `byteOffset` into it. */
  datatype ByteView = ByteView(buffer: seq<byte>, byteOffset: nat)

  /**
   * The engine's answer to the projection query. `dataBuffer` and `offsets`
   * are the `values` and `valueOffsets` of the `input` column's first record
   * batch, when the result exposes them (variable-size binary layout of the
   * Apache Arrow columnar format); the `...Cells` give what `column.get(i)`
   * returns, a missing entry reading as `undefined`.
   */
  datatype QueryResult = QueryResult(
    numRows: nat,
    dataBuffer: Option<ByteView>,
    offsets: Option<seq<int>>,
    inputCells: seq<JsValue>,
    yPredCells: seq<JsValue>,
    yTestCells: seq<JsValue>)

  /** `column.get(i)`. */
  function CellAt(cells: seq<JsValue>, i: nat): JsValue {
    if i < |cells| then cells[i] else Undefined
  }

  /** How `ArrayBuffer.prototype.slice` resolves an index: negative counts from the end, then clamped. */
  function RelativeIndex(len: nat, x: int): (r: nat)
    ensures r <= len
    ensures 0 <= x <= len ==> r == x
  {
    if x < 0 then (if len + x < 0 then 0 else len + x)
    else if x < len then x else len
  }

  /** `buffer.slice(start, end)` on an `ArrayBuffer`: never fails, an inverted range gives no bytes. */
  function ArrayBufferSlice(buf: seq<byte>, start: int, end: int): (r: seq<byte>)
    ensures |r| <= |buf|
    ensures 0 <= start <= end <= |buf| ==> r == buf[start..end]
    ensures 0 <= end <= start ==> r == []
  {
    var first := RelativeIndex(|buf|, start);
    var last := RelativeIndex(|buf|, end);
    if first < last then buf[first..last] else []
  }

  /** Row `i` is read straight from the shared data buffer (the fast path). */
  predicate UsesFastPath(res: QueryResult, i: nat) {
    res.dataBuffer.Some? && res.offsets.Some? && |res.offsets.value| > i + 1
  }

  /** The bytes of row `i`'s `input` cell: a slice of the shared buffer, or a copy of the accessor's bytes. */
  function InputBytes(res: QueryResult, i: nat): seq<byte> {
    if UsesFastPath(res, i) then
      var view := res.dataBuffer.value;
      var start := res.offsets.value[i];
      var end := res.offsets.value[i + 1];
      ArrayBufferSlice(view.buffer, view.byteOffset + start, view.byteOffset + end)
    else
      match CellAt(res.inputCells, i)
      case Bytes(b) => b
      case _ => []
  }

  /** `Number` applied to every element, as in `items.map(Number)`. */
  function MapToNumber(items: seq<JsValue>): (r: seq<Num>)
    ensures |r| == |items|
    ensures forall k :: 0 <= k < |items| ==> r[k] == ToNumber(items[k])
  {
    seq(|items|, k requires 0 <= k < |items| => ToNumber(items[k]))
  }

  /**
   * The `y_pred` cell as a list of numbers: an array is mapped through
   * `Number`, an object with `toArray()` gives that array, any other object
   * gives its property values through `Number` (a `Uint8Array` gives its
   * bytes), and `null`, `undefined` or a primitive give `[]`.
   */
  function PredValues(v: JsValue): seq<Num> {
    match v
    case Arr(items) => MapToNumber(items)
    case ArrowVector(values) => values
    case Bytes(bs) => seq(|bs|, k requires 0 <= k < |bs| => Fin(bs[k] as real))
    case Obj(fieldValues) => MapToNumber(fieldValues)
    case _ => []
  }

  /** `typeof v === "number" ? v : Number(v)`. */
  function TestValue(v: JsValue): Num {
    if v.Number? then v.n else ToNumber(v)
  }

  /** The record the load loop pushes for row `i`. */
  function RowAt(res: QueryResult, i: nat): MnistRow {
    MnistRow(InputBytes(res, i), PredValues(CellAt(res.yPredCells, i)), TestValue(CellAt(res.yTestCells, i)))
  }

  /** All records of a query result, in row-index order. */
  function Rows(res: QueryResult): (rows: seq<MnistRow>)
    ensures |rows| == res.numRows
    ensures forall i :: 0 <= i < res.numRows ==> rows[i] == RowAt(res, i)
  {
    seq(res.numRows, i requires 0 <= i < res.numRows => RowAt(res, i))
  }

  /**
   * The load loop: walks the rows in order and pushes one record each,
   * choosing the byte path per row.
   */
  method ExtractRows(res: QueryResult) returns (rows: seq<MnistRow>)
    ensures |rows| == res.numRows
    ensures forall i :: 0 <= i < |rows| ==> rows[i] == RowAt(res, i)
  {
    rows := [];
    var i := 0;
    while i < res.numRows
      invariant 0 <= i <= res.numRows
      invariant |rows| == i
      invariant forall j :: 0 <= j < i ==> rows[j] == RowAt(res, j)
    {
      var row := ReadRow(res, i);
      rows := rows + [row];
      i := i + 1;
    }
  }

  /** The body of the load loop for row `i`: the input bytes, the scores and the label. */
  method ReadRow(res: QueryResult, i: nat) returns (row: MnistRow)
    ensures row == RowAt(res, i)
  {
    var inputArray: seq<byte>;
    if res.dataBuffer.Some? && res.offsets.Some? && |res.offsets.value| > i + 1 {
      var start := res.offsets.value[i];
      var end := res.offsets.value[i + 1];
      var view := res.dataBuffer.value;
      inputArray := ArrayBufferSlice(view.buffer, view.byteOffset + start, view.byteOffset + end);
    } else {
      var inputData := CellAt(res.inputCells, i);
      if inputData.Bytes? {
        inputArray := inputData.bytes;
      } else {
        inputArray := [];
      }
    }
    var yPredData := CellAt(res.yPredCells, i);
    var yTestData := CellAt(res.yTestCells, i);
    var yPredArray: seq<Num>;
    if yPredData.Arr? {
      yPredArray := MapToNumber(yPredData.items);
    } else if yPredData.ArrowVector? {
      yPredArray := yPredData.values;
    } else if IsObject(yPredData) {
      yPredArray := PredValues(yPredData);
    } else {
      yPredArray := [];
    }
    var yTest := if yTestData.Number? then yTestData.n else ToNumber(yTestData);
    row := MnistRow(inputArray, yPredArray, yTest);
  }

  /**
   * On the fast path with in-range offsets, row `i`'s input is exactly the
   * bytes `offsets[i] .. offsets[i+1]` of the shared buffer, counted from
   * the view's start.
   */
  lemma FastPathIsSlice(res: QueryResult, i: nat)
    requires UsesFastPath(res, i)
    requires 0 <= res.offsets.value[i] <= res.offsets.value[i + 1]
    requires res.dataBuffer.value.byteOffset + res.offsets.value[i + 1] <= |res.dataBuffer.value.buffer|
    ensures var view := res.dataBuffer.value;
      InputBytes(res, i) ==
        view.buffer[view.byteOffset + res.offsets.value[i] .. view.byteOffset + res.offsets.value[i + 1]]
  {
  }

  /** Off the fast path, a `Uint8Array` cell is copied byte for byte and anything else gives no bytes. */
  lemma FallbackInput(res: QueryResult, i: nat)
    requires !UsesFastPath(res, i)
    ensures CellAt(res.inputCells, i).Bytes? ==> RowAt(res, i).input == CellAt(res.inputCells, i).bytes
    ensures !CellAt(res.inputCells, i).Bytes? ==> RowAt(res, i).input == []
  {
  }

  /**
   * The variable-size binary layout: one more offset than rows, offsets
   * non-negative and non-decreasing, and the last one inside the buffer.
   */
  predicate ArrowBinaryLayout(res: QueryResult) {
    && res.dataBuffer.Some? && res.offsets.Some?
    && |res.offsets.value| == res.numRows + 1
    && 0 <= res.offsets.value[0]
    && (forall j, k :: 0 <= j <= k < |res.offsets.value| ==> res.offsets.value[j] <= res.offsets.value[k])
    && res.dataBuffer.value.byteOffset + res.offsets.value[res.numRows] <= |res.dataBuffer.value.buffer|
  }

  /** With the Arrow layout every row is read through the fast path; none falls back. */
  lemma LayoutUsesFastPath(res: QueryResult, i: nat)
    requires ArrowBinaryLayout(res)
    requires i < res.numRows
    ensures UsesFastPath(res, i)
  {
  }

  /** Byte strings joined end to end, in order. */
  function Flatten(pieces: seq<seq<byte>>): seq<byte>
    decreases |pieces|
  {
    if |pieces| == 0 then [] else Flatten(pieces[..|pieces| - 1]) + pieces[|pieces| - 1]
  }

  /**
   * Pieces that are consecutive slices of one buffer, cut at non-decreasing
   * positions, join up to the slice from the first cut to the last.
   */
  lemma {:induction false} FlattenTiles(pieces: seq<seq<byte>>, buf: seq<byte>, pos: seq<int>)
    requires |pos| == |pieces| + 1 && 0 <= pos[0] && pos[|pieces|] <= |buf|
    requires forall j, k :: 0 <= j <= k < |pos| ==> pos[j] <= pos[k]
    requires forall i :: 0 <= i < |pieces| ==> pieces[i] == buf[pos[i]..pos[i + 1]]
    ensures Flatten(pieces) == buf[pos[0]..pos[|pieces|]]
    decreases |pieces|
  {
    var n := |pieces|;
    if n > 0 {
      assert pos[0] <= pos[n - 1] <= pos[n];
      FlattenTiles(pieces[..n - 1], buf, pos[..n]);
      assert buf[pos[0]..pos[n - 1]] + buf[pos[n - 1]..pos[n]] == buf[pos[0]..pos[n]];
    }
  }

  /** The `input` bytes of rows `0 .. n-1`, one entry per row. */
  function Inputs(res: QueryResult, n: nat): (r: seq<seq<byte>>)
    ensures |r| == n && forall i :: 0 <= i < n ==> r[i] == InputBytes(res, i)
  {
    seq(n, i requires 0 <= i < n => InputBytes(res, i))
  }

  /** The buffer positions where rows `0 .. n-1` start, followed by where the last one ends. */
  function Cuts(res: QueryResult, n: nat): (r: seq<int>)
    requires res.dataBuffer.Some? && res.offsets.Some? && n < |res.offsets.value|
    ensures |r| == n + 1 && forall i :: 0 <= i <= n ==> r[i] == res.dataBuffer.value.byteOffset + res.offsets.value[i]
  {
    seq(n + 1, i requires 0 <= i <= n => res.dataBuffer.value.byteOffset + res.offsets.value[i])
  }

  /** The `input` bytes of rows `0 .. n-1` of a query result, concatenated in row order. */
  function ConcatInputs(res: QueryResult, n: nat): seq<byte> {
    Flatten(Inputs(res, n))
  }

  /**
   * With the Arrow layout every row takes the fast path, and the rows'
   * inputs, read in order, are exactly the buffer's bytes between the first
   * and the `n`-th offset: no byte is lost, repeated or reordered.
   */
  lemma RowsTileBuffer(res: QueryResult, n: nat)
    requires ArrowBinaryLayout(res)
    requires n <= res.numRows
    ensures var view := res.dataBuffer.value; var off := res.offsets.value;
      ConcatInputs(res, n) == view.buffer[view.byteOffset + off[0] .. view.byteOffset + off[n]]
  {
    PiecesAreSlices(res, n);
    var pieces, pos := Inputs(res, n), Cuts(res, n);
    assert |pieces| == n && pos[0] == res.dataBuffer.value.byteOffset + res.offsets.value[0];
    FlattenTiles(pieces, res.dataBuffer.value.buffer, pos);
  }

  /** Under the Arrow layout each row's bytes are the slice between its two cut positions. */
  lemma PiecesAreSlices(res: QueryResult, n: nat)
    requires ArrowBinaryLayout(res) && n <= res.numRows
    ensures var pos := Cuts(res, n);
      && 0 <= pos[0] && pos[n] <= |res.dataBuffer.value.buffer|
      && (forall j, k :: 0 <= j <= k < |pos| ==> pos[j] <= pos[k])
      && (forall i :: 0 <= i < n ==> Inputs(res, n)[i] == res.dataBuffer.value.buffer[pos[i]..pos[i + 1]])
  {
    var pos := Cuts(res, n);
    forall i | 0 <= i < n
      ensures Inputs(res, n)[i] == res.dataBuffer.value.buffer[pos[i]..pos[i + 1]]
    {
      FastPathIsSlice(res, i);
    }
  }

  /** A list of numbers wrapped as an array cell comes back unchanged. */
  lemma NumericArrayRoundTrip(ns: seq<Num>)
    ensures PredValues(Arr(seq(|ns|, k requires 0 <= k < |ns| => Number(ns[k])))) == ns
  {
  }

  /** Any cell that is not an object (null, undefined, a number, a string, ...) gives no scores. */
  lemma NonObjectPredIsEmpty(v: JsValue)
    requires !IsObject(v)
    ensures PredValues(v) == []
  {
  }

  /** Object cells give one score per element, so no element is dropped or invented. */
  lemma PredValuesLength(v: JsValue)
    requires IsObject(v)
    ensures |PredValues(v)| == match v
      case Arr(items) => |items|
      case ArrowVector(values) => |values|
      case Bytes(bs) => |bs|
      case Obj(fs) => |fs|
      case _ => 0
  {
  }

  /** The label is the cell as a number: a number is kept, anything else goes through `Number`. */
  lemma TestValueIsNumber(v: JsValue)
    ensures TestValue(v) == ToNumber(v)
    ensures v.Number? ==> TestValue(v) == v.n
  {
  }

  /** How the engine start-up ends: a failure before or at `connect`, or a live connection. */
  datatype InitOutcome = FailedBeforeEngine(err: Thrown) | FailedAtConnect(err: Thrown) | Connected

  /** How a file load ends: one of the awaited engine calls throws, or the query answers. */
  datatype LoadOutcome = LoadThrew(err: Thrown) | Queried(result: QueryResult)

  const NotInitialized := "DuckDB not initialized"
  const InitFailedDefault := "Failed to initialize DuckDB"
  const LoadFailedDefault := "Failed to load parquet file"

  /** The hook's state: the four state flags plus whether the engine and connection refs are set. */
  class DuckDbHook {
    var isLoading: bool
    var isReady: bool
    var error: Option<string>
    var data: seq<MnistRow>
    var dbStored: bool
    var connStored: bool
    var cancelled: bool
    var connClosed: bool
    var dbTerminated: bool

    /** The state on mount: loading, not ready, no error, no rows, no engine. */
    constructor ()
      ensures isLoading && !isReady && error == None && data == []
      ensures !dbStored && !connStored && !cancelled && !connClosed && !dbTerminated
    {
      isLoading, isReady, error, data := true, false, None, [];
      dbStored, connStored, cancelled := false, false, false;
      connClosed, dbTerminated := false, false;
    }

    /**
     * The start-up effect, from its first setters to its end. When teardown
     * has already run by the time the engine is instantiated, the engine is
     * terminated and never stored; a failure is reported only when not
     * cancelled.
     */
    method Init(outcome: InitOutcome) returns (terminatedLate: bool)
      modifies this
      ensures terminatedLate <==> old(cancelled) && !outcome.FailedBeforeEngine?
      ensures data == old(data) && cancelled == old(cancelled)
      ensures connClosed == old(connClosed) && dbTerminated == old(dbTerminated)
      ensures old(cancelled) ==>
        isLoading && error == None && isReady == old(isReady)
        && dbStored == old(dbStored) && connStored == old(connStored)
      ensures !old(cancelled) && outcome.Connected? ==>
        isReady && !isLoading && error == None && dbStored && connStored
      ensures !old(cancelled) && outcome.FailedAtConnect? ==>
        !isLoading && error == Some(MessageOr(outcome.err, InitFailedDefault))
        && isReady == old(isReady) && dbStored && connStored == old(connStored)
      ensures !old(cancelled) && outcome.FailedBeforeEngine? ==>
        !isLoading && error == Some(MessageOr(outcome.err, InitFailedDefault))
        && isReady == old(isReady) && dbStored == old(dbStored) && connStored == old(connStored)
    {
      terminatedLate := false;
      isLoading := true;
      error := None;
      if outcome.FailedBeforeEngine? {
        if !cancelled {
          error := Some(MessageOr(outcome.err, InitFailedDefault));
          isLoading := false;
        }
        return;
      }
      // the engine was instantiated
      if cancelled {
        terminatedLate := true;
        return;
      }
      dbStored := true;
      if outcome.FailedAtConnect? {
        error := Some(MessageOr(outcome.err, InitFailedDefault));
        isLoading := false;
      } else {
        connStored := true;
        isReady := true;
        isLoading := false;
      }
    }

    /** The effect's cleanup: mark cancelled, close the connection and terminate the engine if stored. */
    method Teardown()
      modifies this
      ensures cancelled
      ensures connClosed == (old(connClosed) || connStored)
      ensures dbTerminated == (old(dbTerminated) || dbStored)
      ensures isLoading == old(isLoading) && isReady == old(isReady) && error == old(error) && data == old(data)
      ensures dbStored == old(dbStored) && connStored == old(connStored)
    {
      cancelled := true;
      if connStored {
        connClosed := true;
      }
      if dbStored {
        dbTerminated := true;
      }
    }

    /**
     * The start of `loadParquetFile`: without an engine it only reports
     * "DuckDB not initialized"; otherwise `isLoading` turns on and the error
     * is cleared while the file is read and queried, the old rows still
     * shown.
     */
    method BeginLoad() returns (started: bool)
      modifies this
      ensures started <==> dbStored && connStored
      ensures !started ==> error == Some(NotInitialized) && isLoading == old(isLoading)
      ensures started ==> isLoading && error == None
      ensures data == old(data) && isReady == old(isReady) && dbStored == old(dbStored) && connStored == old(connStored)
      ensures cancelled == old(cancelled) && connClosed == old(connClosed) && dbTerminated == old(dbTerminated)
    {
      if !dbStored || !connStored {
        error := Some(NotInitialized);
        return false;
      }
      started := true;
      isLoading := true;
      error := None;
    }

    /**
     * The end of `loadParquetFile`, once the query has settled: a result
     * replaces `data` with the extracted rows, a failure keeps the old rows
     * and sets `error`. `isLoading` ends either way.
     */
    method FinishLoad(outcome: LoadOutcome)
      modifies this
      ensures !isLoading
      ensures outcome.LoadThrew? ==> error == Some(MessageOr(outcome.err, LoadFailedDefault)) && data == old(data)
      ensures outcome.Queried? ==> data == Rows(outcome.result) && error == old(error)
      ensures isReady == old(isReady) && dbStored == old(dbStored) && connStored == old(connStored)
      ensures cancelled == old(cancelled) && connClosed == old(connClosed) && dbTerminated == old(dbTerminated)
    {
      match outcome {
        case LoadThrew(e) =>
          error := Some(MessageOr(e, LoadFailedDefault));
        case Queried(res) =>
          var rows := ExtractRows(res);
          data := rows;
      }
      isLoading := false;
    }

    /** `loadParquetFile` run to completion with no render in between: the two halves in turn. */
    method LoadParquetFile(outcome: LoadOutcome)
      modifies this
      ensures isReady == old(isReady) && dbStored == old(dbStored) && connStored == old(connStored)
      ensures cancelled == old(cancelled) && connClosed == old(connClosed) && dbTerminated == old(dbTerminated)
      ensures !(old(dbStored) && old(connStored)) ==>
        error == Some(NotInitialized) && data == old(data) && isLoading == old(isLoading)
      ensures old(dbStored) && old(connStored) && outcome.LoadThrew? ==>
        error == Some(MessageOr(outcome.err, LoadFailedDefault)) && data == old(data) && !isLoading
      ensures old(dbStored) && old(connStored) && outcome.Queried? ==>
        data == Rows(outcome.result) && error == None && !isLoading
    {
      var started := BeginLoad();
      if started {
        FinishLoad(outcome);
      }
    }

    /** `clearData`: no rows and no error; the flags and the engine are untouched. */
    method ClearData()
      modifies this
      ensures data == [] && error == None
      ensures isLoading == old(isLoading) && isReady == old(isReady)
      ensures dbStored == old(dbStored) && connStored == old(connStored)
      ensures cancelled == old(cancelled) && connClosed == old(connClosed) && dbTerminated == old(dbTerminated)
    {
      data := [];
      error := None;
    }
  }
}

=== FILE: js.dfy ===
/**
 * The few JavaScript runtime values and conversions the admin dashboard
 * relies on: IEEE 754 numbers (only their ordering, not their bits), the
 * dynamic values a columnar query result hands back per cell, `Number(x)`
 * coercion, thrown values and the outcome of `JSON.parse` on an error text.
 */
module Js {
  import opened Wrappers

  /** A byte of a `Uint8Array`. */
  newtype byte = x: int | 0 <= x < 256

  /** A JavaScript number, kept as an exact real plus the special values. */
  datatype Num = Fin(r: real) | PosInf | NegInf | NaN

  /** JavaScript's `a > b`; false whenever either side is NaN. */
  predicate Gt(a: Num, b: Num) {
    match (a, b)
    case (NaN, _) => false
    case (_, NaN) => false
    case (PosInf, PosInf) => false
    case (PosInf, _) => true
    case (NegInf, _) => false
    case (Fin(x), PosInf) => false
    case (Fin(x), NegInf) => true
    case (Fin(x), Fin(y)) => x > y
  }

  /** `a <= b` in the total order of the non-NaN numbers. */
  predicate Le(a: Num, b: Num) {
    a != NaN && b != NaN && !Gt(a, b)
  }

  /** A non-NaN JavaScript number is `<=` itself and the order is transitive and total. */
  lemma LeFacts(a: Num, b: Num, c: Num)
    requires a != NaN && b != NaN && c != NaN
    ensures Le(a, a)
    ensures Le(a, b) && Le(b, c) ==> Le(a, c)
    ensures Gt(a, b) ==> Le(b, a)
    ensures Gt(a, b) && Le(c, b) ==> Gt(a, c)
  {
  }

  /** JavaScript's `n === k` for a number `n` and an integer `k`. */
  predicate IsInt(n: Num, k: int) {
    n.Fin? && n.r == k as real
  }

  /** JavaScript's truthiness of a number: false for 0 and NaN. */
  predicate Truthy(n: Num) {
    n != NaN && n != Fin(0.0)
  }

  /**
   * A cell value as a query engine hands it back through a column accessor.
   * `Str.numeric` is what `Number(text)` gives (string-to-number parsing is
   * not modelled); `ArrowVector` is an object exposing `toArray()`.
   */
  datatype JsValue =
    | Number(n: Num)
    | BigInt(i: int)
    | Bool(b: bool)
    | Str(text: string, numeric: Num)
    | Null
    | Undefined
    | Bytes(bytes: seq<byte>)
    | Arr(items: seq<JsValue>)
    | ArrowVector(values: seq<Num>)
    | Obj(fieldValues: seq<JsValue>)

  /** `typeof v === "object"` for a value that is not null. */
  predicate IsObject(v: JsValue) {
    v.Bytes? || v.Arr? || v.ArrowVector? || v.Obj?
  }

  /** `Number(v)`: objects are converted to NaN (see README). */
  function ToNumber(v: JsValue): (n: Num)
    ensures v.Number? ==> n == v.n
    ensures v.Undefined? || IsObject(v) ==> n == NaN
    ensures v.Null? ==> n == Fin(0.0)
  {
    match v
    case Number(x) => x
    case BigInt(i) => Fin(i as real)
    case Bool(b) => if b then Fin(1.0) else Fin(0.0)
    case Str(_, x) => x
    case Null => Fin(0.0)
    case Undefined => NaN
    case _ => NaN
  }

  /** A value caught by a `catch` clause: an `Error` with a message, or anything else. */
  datatype Thrown = ErrorObject(message: string) | NonError

  /** `err instanceof Error ? err.message : fallback`. */
  function MessageOr(t: Thrown, fallback: string): (m: string)
    ensures t.ErrorObject? ==> m == t.message
    ensures t.NonError? ==> m == fallback
  {
    match t
    case ErrorObject(msg) => msg
    case NonError => fallback
  }

  /**
   * What `JSON.parse(text)` gives, seen through the two properties the
   * dashboard reads: it throws (`NotJson`), gives `null` (reading a property
   * then throws), or gives a value whose `status`/`message` may be missing.
   */
  datatype JsonParse = NotJson | JsonNull | JsonValue(status: Option<int>, message: Option<string>)

  /** JavaScript's truthiness of a `string | null` value. */
  predicate TruthyText(s: Option<string>) {
    s.Some? && s.value != ""
  }
}

=== FILE: login_form.dfy ===
/** The admin login form: the empty-field check, the sign-in outcome and its messages. */
module LoginForm {
  import opened Wrappers
  import opened Js

  const MissingCredentials: string := "Debes ingresar tu email y contraseña"
  const WrongCredentials: string := "Email o contraseña incorrectos"
  const AuthProblem: string := "Hubo un problema al intentar autenticarte. Intenta más tarde."
  const Unexpected: string := "Ocurrió un error inesperado. Por favor, intenta nuevamente."

  /** The message for a sign-in that threw, chosen by the thrown error's message. */
  function ThrownMessage(t: Thrown): (m: string)
    ensures t == ErrorObject("CREDENCIALES_INVALIDAS") ==> m == WrongCredentials
    ensures t == ErrorObject("ERROR_AUTENTICACION") ==> m == AuthProblem
    ensures t != ErrorObject("CREDENCIALES_INVALIDAS") && t != ErrorObject("ERROR_AUTENTICACION") ==> m == Unexpected
  {
    if t.ErrorObject? && t.message == "CREDENCIALES_INVALIDAS" then WrongCredentials
    else if t.ErrorObject? && t.message == "ERROR_AUTENTICACION" then AuthProblem
    else Unexpected
  }

  /** How `signIn` ended: it returned a user (truthy or not) or threw. */
  datatype SignInOutcome = Returned(userTruthy: bool) | SignInThrew(thrown: Thrown)

  class Form {
    var email: string
    var password: string
    var error: string
    var loading: bool
    var route: Option<string>

    constructor ()
      ensures email == "" && password == "" && error == "" && !loading && route == None
    {
      email := "";
      password := "";
      error := "";
      loading := false;
      route := None;
    }

    method EditEmail(value: string)
      modifies this
      ensures email == value
      ensures password == old(password) && error == old(error) && loading == old(loading) && route == old(route)
    {
      email := value;
    }

    method EditPassword(value: string)
      modifies this
      ensures password == value
      ensures email == old(email) && error == old(error) && loading == old(loading) && route == old(route)
    {
      password := value;
    }

    /**
     * The start of `handleSubmit`: empty fields set the missing-credentials
     * message and sign-in is not called; otherwise `loading` turns on, the
     * error is cleared and sign-in is called with the two fields. The
     * button stays enabled, so this may start again while loading.
     */
    method BeginSubmit() returns (signInCalled: bool)
      modifies this
      ensures signInCalled <==> email != "" && password != ""
      ensures !signInCalled ==> error == MissingCredentials && loading == old(loading)
      ensures signInCalled ==> loading && error == ""
      ensures email == old(email) && password == old(password) && route == old(route)
    {
      if email == "" || password == "" {
        error := MissingCredentials;
        return false;
      }
      signInCalled := true;
      loading := true;
      error := "";
    }

    /**
     * The end of `handleSubmit`, once sign-in has settled: only a truthy
     * user navigates to "/", a falsy one sets the wrong-credentials message
     * and a throw sets the message for its code. `loading` ends either way.
     */
    method FinishSubmit(outcome: SignInOutcome)
      modifies this
      ensures !loading
      ensures outcome == Returned(true) ==> route == Some("/") && error == old(error)
      ensures outcome == Returned(false) ==> route == old(route) && error == WrongCredentials
      ensures outcome.SignInThrew? ==> route == old(route) && error == ThrownMessage(outcome.thrown)
      ensures email == old(email) && password == old(password)
    {
      match outcome {
        case Returned(userTruthy) =>
          if !userTruthy {
            error := WrongCredentials;
          } else {
            route := Some("/");
          }
        case SignInThrew(t) =>
          error := ThrownMessage(t);
      }
      loading := false;
    }

    /** `handleSubmit` run to completion with no render in between: the two halves in turn. */
    method HandleSubmit(outcome: SignInOutcome) returns (signInCalled: bool)
      modifies this
      ensures signInCalled <==> old(email) != "" && old(password) != ""
      ensures !signInCalled ==> error == MissingCredentials && loading == old(loading) && route == old(route)
      ensures signInCalled ==> !loading
      ensures signInCalled && outcome == Returned(true) ==> route == Some("/") && error == ""
      ensures signInCalled && outcome == Returned(false) ==> route == old(route) && error == WrongCredentials
      ensures signInCalled && outcome.SignInThrew? ==> route == old(route) && error == ThrownMessage(outcome.thrown)
      ensures email == old(email) && password == old(password)
    {
      signInCalled := BeginSubmit();
      if signInCalled {
        FinishSubmit(outcome);
      }
    }

    /** The render-time toast: a pending error is shown once and then cleared. */
    method FlushError() returns (toast: Option<string>)
      modifies this
      ensures old(error) != "" ==> toast == Some(old(error))
      ensures old(error) == "" ==> toast == None
      ensures error == ""
      ensures email == old(email) && password == old(password) && loading == old(loading) && route == old(route)
    {
      toast := None;
      if error != "" {
        toast := Some(error);
        error := "";
      }
    }
  }
}

=== FILE: middleware.dfy ===
/**
 * The request middleware: the configuration check, the login guard and the
 * authenticated rewrite of MLflow requests to the tracking server.
 */
module Middleware {
  import opened Wrappers
  import opened Js
  import opened Strings

  /** The environment variables the middleware reads; unset is `None`. */
  datatype Env = Env(supabaseUrl: Option<string>, supabaseAnonKey: Option<string>, mlflowTrackingUri: Option<string>)

  /** The parts of the incoming request the middleware reads. */
  datatype Request = Request(pathname: string, search: string, headers: map<string, string>, accessTokenCookie: Option<string>)

  /** The response the middleware returns. */
  datatype Response =
    | Misconfigured                                   // 500 "Service misconfigured"
    | RedirectToLogin(search: string)                 // the same URL with the path set to "/login"
    | MlflowNotConfigured                             // 503 "MLflow service not configured"
    | Rewrite(target: string, search: string, headers: map<string, string>)
    | PassThrough                                     // the request continues unchanged

  const MlflowProxyPrefix: string := "/mlflow-proxy"

  /** The paths reachable without a signed-in user (a prefix test). */
  predicate IsPublicPath(pathname: string) {
    StartsWith(pathname, "/login") || StartsWith(pathname, "/set-password")
  }

  /** The paths served by the MLflow tracking server. */
  predicate IsMlflowPath(pathname: string) {
    StartsWith(pathname, MlflowProxyPrefix) || StartsWith(pathname, "/static-files") || StartsWith(pathname, "/ajax-api")
  }

  /** The path on the tracking server: the first "/mlflow-proxy" removed. */
  function SubPath(pathname: string): string {
    ReplaceFirst(pathname, MlflowProxyPrefix, "")
  }

  /** The forwarded headers: a bearer token, and the token as the whole Cookie header when the request has no token cookie. */
  function ProxyHeaders(headers: map<string, string>, accessTokenCookie: Option<string>, accessToken: string): (h: map<string, string>)
    ensures "Authorization" in h && h["Authorization"] == "Bearer " + accessToken
    ensures accessTokenCookie.None? ==> "Cookie" in h && h["Cookie"] == "access_token=" + accessToken
    ensures accessTokenCookie.Some? ==> ("Cookie" in h <==> "Cookie" in headers) && ("Cookie" in headers ==> h["Cookie"] == headers["Cookie"])
    ensures forall k :: k != "Authorization" && k != "Cookie" ==> (k in h <==> k in headers) && (k in headers ==> h[k] == headers[k])
  {
    var withAuth := headers["Authorization" := "Bearer " + accessToken];
    if accessTokenCookie.None? then withAuth["Cookie" := "access_token=" + accessToken] else withAuth
  }

  /**
   * `middleware`: the decision for a request given the environment, whether
   * a user is signed in and the session's access token (`None` for no
   * session).
   */
  function Decide(env: Env, req: Request, user: bool, session: Option<string>): (r: Response)
    ensures r == Misconfigured <==> !TruthyText(env.supabaseUrl) || !TruthyText(env.supabaseAnonKey)
    ensures r.RedirectToLogin? <==>
      TruthyText(env.supabaseUrl) && TruthyText(env.supabaseAnonKey) && !user && !IsPublicPath(req.pathname)
    ensures r.RedirectToLogin? ==> r.search == req.search
    ensures (r.Rewrite? || r == MlflowNotConfigured) <==>
      TruthyText(env.supabaseUrl) && TruthyText(env.supabaseAnonKey) && user && session.Some? && IsMlflowPath(req.pathname)
    ensures r == MlflowNotConfigured ==> !TruthyText(env.mlflowTrackingUri)
    ensures r.Rewrite? ==>
      && TruthyText(env.mlflowTrackingUri)
      && r.target == env.mlflowTrackingUri.value + SubPath(req.pathname)
      && r.search == req.search
      && r.headers == ProxyHeaders(req.headers, req.accessTokenCookie, session.value)
  {
    if !TruthyText(env.supabaseUrl) || !TruthyText(env.supabaseAnonKey) then Misconfigured
    else if !user && !IsPublicPath(req.pathname) then RedirectToLogin(req.search)
    else if user && session.Some? && IsMlflowPath(req.pathname) then
      if !TruthyText(env.mlflowTrackingUri) then MlflowNotConfigured
      else Rewrite(env.mlflowTrackingUri.value + SubPath(req.pathname), req.search,
                   ProxyHeaders(req.headers, req.accessTokenCookie, session.value))
    else PassThrough
  }

  /**
   * The public-path test is a prefix test: every path that starts with
   * "/login" or "/set-password", "/login-x" among them, is reachable without
   * a user, while a path that only contains "/login" further on is not.
   */
  lemma PublicPathIsPrefixTest()
    ensures forall rest :: IsPublicPath("/login" + rest) && IsPublicPath("/set-password" + rest)
    ensures IsPublicPath("/login-x") && IsPublicPath("/set-password?x")
    ensures !IsPublicPath("/") && !IsPublicPath("/users/login")
  {
    forall rest
      ensures IsPublicPath("/login" + rest) && IsPublicPath("/set-password" + rest)
    {
      assert ("/login" + rest)[..|"/login"|] == "/login";
      assert ("/set-password" + rest)[..|"/set-password"|] == "/set-password";
    }
    assert "/users/login"[1] != "/login"[1] && "/users/login"[1] != "/set-password"[1];
  }

  /**
   * A path under "/mlflow-proxy" loses that prefix and nothing else; a
   * path without "/mlflow-proxy" anywhere is forwarded as it is.
   */
  lemma SubPathSpec(pathname: string)
    ensures StartsWith(pathname, MlflowProxyPrefix) ==> SubPath(pathname) == pathname[|MlflowProxyPrefix|..]
    ensures !Contains(pathname, MlflowProxyPrefix) ==> SubPath(pathname) == pathname
  {
    if StartsWith(pathname, MlflowProxyPrefix) {
      ReplaceLeading(pathname, MlflowProxyPrefix);
    }
    if !Contains(pathname, MlflowProxyPrefix) {
      ReplaceAbsent(pathname, MlflowProxyPrefix);
    }
  }

  /**
   * The removal is not anchored: a "/static-files" or "/ajax-api" path
   * containing "/mlflow-proxy" further on loses that inner part, so
   * "/ajax-api/mlflow-proxy/x" is forwarded as "/ajax-api/x".
   */
  lemma InnerPrefixRemoved(rest: string)
    ensures SubPath("/ajax-api" + MlflowProxyPrefix + rest) == "/ajax-api" + rest
  {
    NoEarlierOccurrence("/ajax-api", rest);
    UnanchoredRemoval("/ajax-api", rest);
  }

  /** "/ajax-api" followed by the prefix has no occurrence of the prefix before position 9. */
  lemma NoEarlierOccurrence(a: string, b: string)
    requires a == "/ajax-api"
    ensures forall j :: 0 <= j < |a| ==> !StartsWith((a + MlflowProxyPrefix + b)[j..], MlflowProxyPrefix)
  {
    var p := a + MlflowProxyPrefix + b;
    forall j | 0 <= j < |a|
      ensures !StartsWith(p[j..], MlflowProxyPrefix)
    {
      assert p[j] == a[j] && p[j + 1] == (a + "/")[j + 1];
      assert a[j] != '/' || (a + "/")[j + 1] != 'm';
      assert p[j..][0] == p[j] && p[j..][1] == p[j + 1];
    }
  }

  /** Removing the first occurrence cuts out the prefix after any text in which it does not occur. */
  lemma UnanchoredRemoval(a: string, b: string)
    requires forall j :: 0 <= j < |a| ==> !StartsWith((a + MlflowProxyPrefix + b)[j..], MlflowProxyPrefix)
    ensures SubPath(a + MlflowProxyPrefix + b) == a + b
  {
    var p := a + MlflowProxyPrefix + b;
    assert p[|a|..][..|MlflowProxyPrefix|] == MlflowProxyPrefix;
    IndexOfAt(p, MlflowProxyPrefix, |a|);
    assert p[..|a|] == a && p[|a| + |MlflowProxyPrefix|..] == b;
  }

  /** The configuration check comes before everything: no user, path or session matters. */
  lemma MisconfigurationFirst(env: Env, req: Request, user: bool, session: Option<string>)
    requires !TruthyText(env.supabaseUrl)
    ensures Decide(env, req, user, session) == Misconfigured
  {
  }

  /** A signed-in user is never redirected, and a request outside MLflow paths always passes through. */
  lemma SignedInOutsideMlflow(env: Env, req: Request, session: Option<string>)
    requires TruthyText(env.supabaseUrl) && TruthyText(env.supabaseAnonKey)
    requires !IsMlflowPath(req.pathname)
    ensures Decide(env, req, true, session) == PassThrough
  {
  }
}

=== FILE: model_evaluations_table.dfy ===
/**
 * The evaluation-runs table: the clamp on how many runs to request, the
 * mapping of the runs-search response to table rows, the classification of
 * connection errors, the choice of view and the run search.
 */
module ModelEvaluationsTable {
  import opened Wrappers
  import opened Js
  import opened Strings
  import opened Seqs

  // ---------------------------------------------------------------------
  // fetchRuns

  /** `Math.max(1, maxResults || 10)`: 0 and NaN fall back to 10, anything below 1 becomes 1. */
  function SafeMaxResults(maxResults: Num): (r: Num)
    ensures r != NaN && Le(Fin(1.0), r)
    ensures !Truthy(maxResults) ==> r == Fin(10.0)
    ensures maxResults.Fin? && maxResults.r != 0.0 && maxResults.r < 1.0 ==> r == Fin(1.0)
    ensures maxResults.Fin? && maxResults.r >= 1.0 ==> r == maxResults
    ensures maxResults == NegInf ==> r == Fin(1.0)
    ensures maxResults == PosInf ==> r == PosInf
  {
    var requested := if Truthy(maxResults) then maxResults else Fin(10.0);
    if Gt(requested, Fin(1.0)) then requested else Fin(1.0)
  }

  /** One metric of a run. */
  datatype Metric = Metric(key: string, value: real)

  /** A run as the runs-search response carries it; a missing name or metric list is `None`. */
  datatype RawRun = RawRun(runId: string, runName: Option<string>, status: string, startTime: int, metrics: Option<seq<Metric>>)

  /** A table row. */
  datatype Run = Run(runId: string, runName: Option<string>, status: string, startTime: int, accuracy: Option<real>)

  /** `metrics?.find((m) => m.key === "accuracy")?.value`. */
  function FindAccuracy(metrics: seq<Metric>): (r: Option<real>)
    ensures r.None? <==> forall i :: 0 <= i < |metrics| ==> metrics[i].key != "accuracy"
    ensures r.Some? ==>
      exists i :: 0 <= i < |metrics| && metrics[i].key == "accuracy" && metrics[i].value == r.value &&
        forall j :: 0 <= j < i ==> metrics[j].key != "accuracy"
  {
    if metrics == [] then None
    else if metrics[0].key == "accuracy" then
      Some(metrics[0].value)
    else
      var rest := FindAccuracy(metrics[1..]);
      assert forall i :: 1 <= i < |metrics| ==> metrics[i] == metrics[1..][i - 1];
      if rest.Some? then
        var i :| 0 <= i < |metrics[1..]| && metrics[1..][i].key == "accuracy" && metrics[1..][i].value == rest.value
          && forall j :: 0 <= j < i ==> metrics[1..][j].key != "accuracy";
        assert metrics[i + 1].key == "accuracy" && metrics[i + 1].value == rest.value;
        rest
      else rest
  }

  function ToRow(raw: RawRun): Run {
    Run(raw.runId, raw.runName, raw.status, raw.startTime,
        if raw.metrics.Some? then FindAccuracy(raw.metrics.value) else None)
  }

  /** `(data.runs || []).map(...)`: one row per run, in order, a missing list giving none. */
  function ToRows(runs: Option<seq<RawRun>>): (r: seq<Run>)
    ensures runs.None? ==> r == []
    ensures runs.Some? ==> |r| == |runs.value|
    ensures runs.Some? ==> forall i :: 0 <= i < |r| ==>
      && r[i].runId == runs.value[i].runId && r[i].runName == runs.value[i].runName
      && r[i].status == runs.value[i].status && r[i].startTime == runs.value[i].startTime
      && r[i].accuracy == (if runs.value[i].metrics.Some? then FindAccuracy(runs.value[i].metrics.value) else None)
  {
    if runs.None? then []
    else seq(|runs.value|, i requires 0 <= i < |runs.value| => ToRow(runs.value[i]))
  }

  /** A row's accuracy is the first "accuracy" metric's value, and missing without metrics. */
  lemma RowAccuracy(raw: RawRun)
    ensures raw.metrics.None? ==> ToRow(raw).accuracy == None
    ensures raw.metrics.Some? && raw.metrics.value != [] && raw.metrics.value[0].key == "accuracy" ==>
      ToRow(raw).accuracy == Some(raw.metrics.value[0].value)
    ensures ToRow(raw).accuracy.Some? ==>
      && raw.metrics.Some?
      && exists i :: 0 <= i < |raw.metrics.value| && raw.metrics.value[i] == Metric("accuracy", ToRow(raw).accuracy.value)
  {
    if ToRow(raw).accuracy.Some? {
      var ms := raw.metrics.value;
      var i :| 0 <= i < |ms| && ms[i].key == "accuracy" && ms[i].value == ToRow(raw).accuracy.value
        && forall j :: 0 <= j < i ==> ms[j].key != "accuracy";
      assert ms[i] == Metric("accuracy", ToRow(raw).accuracy.value);
    }
  }

  // ---------------------------------------------------------------------
  // Errors and views

  /** `isCORSError`: a failure whose message names a failed fetch, a network error or CORS. */
  function IsCORSError(error: Option<string>): (r: bool)
    ensures error.None? ==> !r
    ensures error.Some? ==> (r <==>
      Contains(error.value, "Failed to fetch") || Contains(error.value, "NetworkError") || Contains(error.value, "CORS"))
  {
    if error.None? then false
    else
      var message := error.value;
      Contains(message, "Failed to fetch") || Contains(message, "NetworkError") || Contains(message, "CORS")
  }

  /** The browser's message when a request is blocked (for instance by CORS) is classified as such. */
  lemma BlockedRequestIsCORS(prefix: string, suffix: string)
    ensures IsCORSError(Some(prefix + "Failed to fetch" + suffix))
  {
    var s := prefix + "Failed to fetch" + suffix;
    assert StartsWith(s[|prefix|..], "Failed to fetch");
    ContainsIff(s, "Failed to fetch");
  }

  datatype View =
    | ErrorView(message: string, cors: bool)
    | LoadingView
    | TableView(rows: seq<Run>, total: nat)

  // ---------------------------------------------------------------------
  // Search

  /** `run.run_name?.toLowerCase().includes(q) || run.run_id.toLowerCase().includes(q)`. */
  predicate Matches(run: Run, search: string) {
    var q := ToLower(search);
    (run.runName.Some? && Contains(ToLower(run.runName.value), q)) || Contains(ToLower(run.runId), q)
  }

  /** `filteredRuns`: the runs matching the search, in order; no runs give none. */
  function FilteredRuns(runs: Option<seq<Run>>, search: string): (r: seq<Run>)
    ensures runs.None? ==> r == []
    ensures runs.Some? ==> |r| <= |runs.value|
    ensures runs.Some? ==> forall x :: x in r <==> x in runs.value && Matches(x, search)
  {
    if runs.None? then [] else Filter((run: Run) => Matches(run, search), runs.value)
  }

  /** The filtered rows are an order-preserving selection of the runs. */
  lemma FilteredRunsIsSubsequence(runs: seq<Run>, search: string)
    ensures IsSubsequence(FilteredRuns(Some(runs), search), runs)
  {
    FilterIsSubsequence((run: Run) => Matches(run, search), runs);
  }

  /** An empty search keeps every run. */
  lemma EmptySearchKeepsAll(runs: seq<Run>)
    ensures FilteredRuns(Some(runs), "") == runs
  {
    ToLowerEmpty();
    forall run | run in runs
      ensures Matches(run, "")
    {
      ContainsEmpty(ToLower(run.runId));
    }
    FilterKeepsAll((run: Run) => Matches(run, ""), runs);
  }

  lemma LowerCharIdempotent(c: char)
    ensures LowerChar(LowerChar(c)) == LowerChar(c)
  {
  }

  /** The search ignores the case of ASCII letters in the search text. */
  lemma SearchIgnoresCase(run: Run, search: string)
    ensures Matches(run, search) <==> Matches(run, ToLower(search))
  {
    var q := ToLower(search);
    assert ToLower(q) == q by {
      forall i | 0 <= i < |q|
        ensures ToLower(q)[i] == q[i]
      {
        LowerCharIdempotent(search[i]);
      }
    }
  }

  /**
   * `ModelEvaluationsTable`'s view: the experiments error before the runs
   * error, any error before loading, and the filtered table with the
   * number of runs last.
   */
  function SelectView(experimentsError: Option<string>, runsError: Option<string>,
                      experimentsLoading: bool, runsLoading: bool,
                      runs: Option<seq<Run>>, search: string): (v: View)
    ensures experimentsError.Some? ==> v == ErrorView(experimentsError.value, IsCORSError(experimentsError))
    ensures experimentsError.None? && runsError.Some? ==> v == ErrorView(runsError.value, IsCORSError(runsError))
    ensures experimentsError.None? && runsError.None? ==>
      (v.LoadingView? <==> experimentsLoading || runsLoading)
    ensures experimentsError.None? && runsError.None? ==> !v.ErrorView?
    ensures experimentsError.None? && runsError.None? && !experimentsLoading && !runsLoading ==> v.TableView?
    ensures v.TableView? ==>
      v.rows == FilteredRuns(runs, search) && v.total == (if runs.Some? then |runs.value| else 0) && |v.rows| <= v.total
  {
    var error := if experimentsError.Some? then experimentsError else runsError;
    if error.Some? then ErrorView(error.value, IsCORSError(error))
    else if experimentsLoading || runsLoading then LoadingView
    else TableView(FilteredRuns(runs, search), if runs.Some? then |runs.value| else 0)
  }
}

=== FILE: parquet_viewer.dfy ===
/**
 * The model inspector's viewer: the argmax that turns a score list into a
 * predicted label, the tensor canvas (value count to shape, min-max
 * normalisation, grey RGBA pixels), the correctness counts of the table,
 * and the choice of screen from the data hook's state.
 */
module ParquetViewer {
  import opened Wrappers
  import opened Js
  import opened Seqs
  import opened DuckDbHook

  // ---------------------------------------------------------------------
  // findMaxIndex

  /**
   * The left-to-right scan of `findMaxIndex` over the first `n` scores:
   * a later score replaces the current best only when it is strictly
   * greater (`>`), so NaN never wins and ties keep the earlier index.
   */
  function ScanMax(arr: seq<Num>, n: nat): (r: (nat, Num))
    requires 1 <= n <= |arr|
    ensures r.0 < n && r.1 == arr[r.0]
    ensures forall j :: r.0 < j < n ==> !Gt(arr[j], r.1)
  {
    if n == 1 then (0, arr[0])
    else
      var best := ScanMax(arr, n - 1);
      if Gt(arr[n - 1], best.1) then (n - 1, arr[n - 1]) else best
  }

  /** `findMaxIndex(arr)`: the scan's result, or index 0 with value 0 for an empty list. */
  function MaxIndexOf(arr: seq<Num>): (r: (nat, Num))
    ensures |arr| == 0 ==> r == (0, Fin(0.0))
    ensures |arr| > 0 ==> r.0 < |arr| && r.1 == arr[r.0]
  {
    if |arr| == 0 then (0, Fin(0.0)) else ScanMax(arr, |arr|)
  }

  /** No score is NaN. */
  predicate NoNaN(arr: seq<Num>) {
    forall j :: 0 <= j < |arr| ==> arr[j] != NaN
  }

  /**
   * Without NaN the scan finds a maximum, and the first one: every score
   * is at most the result, and every score before the result's index is
   * strictly smaller.
   */
  lemma {:induction false} ScanMaxIsFirstMaximum(arr: seq<Num>, n: nat)
    requires 1 <= n <= |arr|
    requires NoNaN(arr)
    ensures forall j :: 0 <= j < n ==> Le(arr[j], ScanMax(arr, n).1)
    ensures forall j :: 0 <= j < ScanMax(arr, n).0 ==> Gt(ScanMax(arr, n).1, arr[j])
  {
    if n > 1 {
      ScanMaxIsFirstMaximum(arr, n - 1);
      var best := ScanMax(arr, n - 1);
      var last := arr[n - 1];
      if Gt(last, best.1) {
        forall j | 0 <= j < n - 1
          ensures Gt(last, arr[j])
        {
          LeFacts(arr[j], best.1, last);
          LeFacts(last, best.1, arr[j]);
        }
      } else {
        LeFacts(last, best.1, best.1);
      }
    } else {
      LeFacts(arr[0], arr[0], arr[0]);
    }
  }

  /** The tie-break stated directly: of two equal scores the later one is never the result. */
  lemma FirstMaximumWins(arr: seq<Num>, j: nat, k: nat)
    requires NoNaN(arr)
    requires j < k < |arr| && arr[j] == arr[k]
    ensures MaxIndexOf(arr).0 != k
  {
    ScanMaxIsFirstMaximum(arr, |arr|);
    assert !Gt(arr[j], arr[j]);
  }

  /** `findMaxIndex`: the loop over the scores, keeping the best index and value. */
  method FindMaxIndex(arr: seq<Num>) returns (index: nat, value: Num)
    ensures (index, value) == MaxIndexOf(arr)
    ensures |arr| > 0 ==> index < |arr| && value == arr[index]
    ensures |arr| > 0 && NoNaN(arr) ==> forall j :: 0 <= j < |arr| ==> Le(arr[j], value)
    ensures |arr| > 0 && NoNaN(arr) ==> forall j :: 0 <= j < index ==> Gt(value, arr[j])
  {
    index := 0;
    value := if |arr| > 0 then arr[0] else Fin(0.0);
    if |arr| == 0 {
      return;
    }
    var i := 1;
    while i < |arr|
      invariant 1 <= i <= |arr|
      invariant (index, value) == ScanMax(arr, i)
    {
      var v := arr[i];
      if Gt(v, value) {
        value := v;
        index := i;
      }
      i := i + 1;
    }
    if NoNaN(arr) {
      ScanMaxIsFirstMaximum(arr, |arr|);
    }
  }

  // ---------------------------------------------------------------------
  // MnistCanvas: shape resolution

  function Square(s: nat): nat {
    s * s
  }

  lemma SquareMonotone(a: nat, b: nat)
    requires a <= b
    ensures Square(a) <= Square(b)
  {
    assert a * a <= a * b <= b * b;
  }

  /** The integer square root searched upward from `s`. */
  function SqrtSearch(n: nat, s: nat): (r: nat)
    requires Square(s) <= n
    ensures Square(r) <= n < Square(r + 1)
    decreases n - s
  {
    if Square(s + 1) > n then s
    else
      SquareMonotone(1, s + 1);
      assert s + 1 <= Square(s + 1) by {
        assert (s + 1) * 1 <= (s + 1) * (s + 1);
      }
      SqrtSearch(n, s + 1)
  }

  /** The floor of the square root of `n`. */
  function FloorSqrt(n: nat): (r: nat)
    ensures Square(r) <= n < Square(r + 1)
  {
    SqrtSearch(n, 0)
  }

  lemma SquareStep(t: nat)
    ensures Square(t + 1) == Square(t) + 2 * t + 1
  {
  }

  /** A side whose square is `n` is the floor square root, so it is unique. */
  lemma SquareRootUnique(n: nat, t: nat)
    requires Square(t) == n
    ensures t == FloorSqrt(n)
  {
    var r := FloorSqrt(n);
    if t < r {
      SquareMonotone(t + 1, r);
      SquareStep(t);
    } else if t > r {
      SquareMonotone(r + 1, t);
    }
  }

  /**
   * `Math.sqrt(n)` followed by `Number.isInteger`: the side when `n` is a
   * perfect square, nothing otherwise.
   */
  function IntegerSqrt(n: nat): (r: Option<nat>)
    ensures r.Some? ==> Square(r.value) == n
    ensures r.None? ==> forall t :: Square(t) != n
  {
    var s := FloorSqrt(n);
    if Square(s) == n then Some(s)
    else
      assert forall t :: Square(t) == n ==> t == s by {
        forall t | Square(t) == n ensures t == s { SquareRootUnique(n, t); }
      }
      None
  }

  /** The resolved raster: width, height and how many leading values are drawn. */
  datatype Shape = Shape(width: nat, height: nat, rendered: nat)

  /**
   * The shape `MnistCanvas` gives `numValues` float32 values: 50176 draws
   * the first 784 as 28x28, 784 draws all as 28x28, any other count must
   * be a positive perfect square drawn as a square; otherwise no shape.
   */
  function ResolveShape(numValues: nat): (r: Option<Shape>)
  {
    if numValues == 50176 then Some(Shape(28, 28, 784))
    else if numValues == 784 then Some(Shape(28, 28, 784))
    else
      match IntegerSqrt(numValues)
      case Some(side) => if side > 0 then Some(Shape(side, side, numValues)) else None
      case None => None
  }

  /**
   * A shape exists exactly for 784, 50176 and the positive perfect
   * squares; it draws `width * height` values, never more than there are,
   * and every value except in the 50176 case.
   */
  lemma ResolveShapeSpec(numValues: nat)
    ensures ResolveShape(numValues).Some? <==>
      numValues == 784 || numValues == 50176 || (numValues > 0 && exists t :: Square(t) == numValues)
    ensures ResolveShape(numValues).Some? ==>
      var sh := ResolveShape(numValues).value;
      sh.width * sh.height == sh.rendered <= numValues && sh.width == sh.height > 0
    ensures numValues != 50176 && ResolveShape(numValues).Some? ==> ResolveShape(numValues).value.rendered == numValues
  {
    if numValues > 0 && numValues != 784 && numValues != 50176 && exists t :: Square(t) == numValues {
      var t :| Square(t) == numValues;
      SquareRootUnique(numValues, t);
      assert t > 0;
    }
  }

  /**
   * The special cases against the square rule: 784 is what the square rule
   * gives anyway (28x28), while 50176 = 224 * 224 would otherwise be drawn
   * as 224x224 and is cut to its first 784 values instead.
   */
  lemma SpecialCountsAgainstSquareRule()
    ensures IntegerSqrt(784) == Some(28)
    ensures IntegerSqrt(50176) == Some(224)
    ensures ResolveShape(784) == Some(Shape(28, 28, 784))
    ensures ResolveShape(50176) == Some(Shape(28, 28, 784))
  {
    SquareRootUnique(784, 28);
    SquareRootUnique(50176, 224);
  }

  // ---------------------------------------------------------------------
  // MnistCanvas: normalisation and pixels

  /** `maxVal - minVal || 1`: the spread of the values, with a zero spread replaced by 1. */
  function Spread(lo: real, hi: real): (r: real)
    ensures r != 0.0
    ensures lo < hi ==> r == hi - lo
  {
    if hi - lo == 0.0 then 1.0 else hi - lo
  }

  /** `Math.round(x)`: the nearest integer, halves rounded up. */
  function Round(x: real): (n: int)
    ensures x - 0.5 < n as real <= x + 0.5
  {
    (x + 0.5).Floor
  }

  /** `Math.round((v - lo) / range * 255)`: a value's grey level. */
  function Brightness(v: real, lo: real, range: real): int
    requires range != 0.0
  {
    Round((v - lo) / range * 255.0)
  }

  /** Every value between the minimum and the maximum gets a grey level in 0..255. */
  lemma BrightnessInRange(v: real, lo: real, hi: real)
    requires lo <= v <= hi
    ensures 0.0 <= (v - lo) / Spread(lo, hi) <= 1.0
    ensures 0 <= Brightness(v, lo, Spread(lo, hi)) <= 255
  {
    var range := Spread(lo, hi);
    if lo < hi {
      assert (v - lo) / range <= 1.0 by {
        assert v - lo <= range;
      }
    }
    var x := (v - lo) / range * 255.0;
    assert 0.0 <= x <= 255.0;
  }

  /** The normalisation keeps the order of the values: a larger value is never darker. */
  lemma BrightnessMonotone(v1: real, v2: real, lo: real, range: real)
    requires range > 0.0
    requires v1 <= v2
    ensures Brightness(v1, lo, range) <= Brightness(v2, lo, range)
  {
    assert (v1 - lo) / range <= (v2 - lo) / range;
  }

  /** The RGBA byte at position `j` of the image of `pixels`: grey level in R, G and B, 255 in alpha. */
  function Channel(pixels: seq<real>, lo: real, range: real, j: nat): int
    requires j < 4 * |pixels| && range != 0.0
  {
    if j % 4 == 3 then 255 else Brightness(pixels[j / 4], lo, range)
  }

  /** The image `MnistCanvas` draws for a non-empty pixel list. */
  function Image(pixels: seq<real>): seq<int>
    requires |pixels| > 0
  {
    var lo := Min(pixels);
    var range := Spread(lo, Max(pixels));
    seq(4 * |pixels|, j requires 0 <= j < 4 * |pixels| => Channel(pixels, lo, range, j))
  }

  /**
   * Every pixel of the image is grey and opaque: R = G = B = its grey level,
   * which lies in 0..255, and alpha is 255.
   */
  lemma ImagePixels(pixels: seq<real>, i: nat)
    requires |pixels| > 0 && i < |pixels|
    ensures |Image(pixels)| == 4 * |pixels|
    ensures var b := Brightness(pixels[i], Min(pixels), Spread(Min(pixels), Max(pixels)));
      && Image(pixels)[4 * i .. 4 * i + 4] == [b, b, b, 255]
      && 0 <= b <= 255
  {
    BrightnessInRange(pixels[i], Min(pixels), Max(pixels));
    var img := Image(pixels);
    assert (4 * i) / 4 == i && (4 * i + 1) / 4 == i && (4 * i + 2) / 4 == i && (4 * i + 3) % 4 == 3;
    assert (4 * i) % 4 == 0 && (4 * i + 1) % 4 == 1 && (4 * i + 2) % 4 == 2 && (4 * i + 3) / 4 == i;
  }

  /** The min/max loop of `MnistCanvas`; an empty list gives 0 for both. */
  method MinMax(pixels: seq<real>) returns (lo: real, hi: real)
    ensures |pixels| == 0 ==> lo == 0.0 && hi == 0.0
    ensures |pixels| > 0 ==> lo == Min(pixels) && hi == Max(pixels)
    ensures forall i :: 0 <= i < |pixels| ==> lo <= pixels[i] <= hi
  {
    if |pixels| == 0 {
      return 0.0, 0.0;
    }
    lo, hi := pixels[0], pixels[0];
    var i := 1;
    while i < |pixels|
      invariant 1 <= i <= |pixels|
      invariant lo == MinUpTo(pixels, i) && hi == MaxUpTo(pixels, i)
    {
      var v := pixels[i];
      if v < lo {
        lo := v;
      }
      if v > hi {
        hi := v;
      }
      i := i + 1;
    }
  }

  /** The pixel loop: writes R, G, B and alpha of every pixel into the image buffer. */
  method FillPixels(img: array<int>, pixels: seq<real>, lo: real, range: real)
    requires img.Length == 4 * |pixels| && range != 0.0
    modifies img
    ensures forall j :: 0 <= j < img.Length ==> img[j] == Channel(pixels, lo, range, j)
  {
    var i := 0;
    while i < |pixels|
      invariant 0 <= i <= |pixels|
      invariant forall j :: 0 <= j < 4 * i ==> img[j] == Channel(pixels, lo, range, j)
    {
      var brightness := Brightness(pixels[i], lo, range);
      var idx := i * 4;
      img[idx] := brightness;
      img[idx + 1] := brightness;
      img[idx + 2] := brightness;
      img[idx + 3] := 255;
      i := i + 1;
    }
  }

  /** A buffer holding every channel of the normalised pixels is the image of those pixels. */
  lemma FilledImage(img: seq<int>, pixels: seq<real>)
    requires |pixels| > 0 && |img| == 4 * |pixels|
    requires forall j :: 0 <= j < |img| ==> img[j] == Channel(pixels, Min(pixels), Spread(Min(pixels), Max(pixels)), j)
    ensures img == Image(pixels)
  {
  }

  /** What the canvas cell shows: the error placeholder or a drawn raster. */
  datatype CanvasView = Placeholder | Drawn(width: nat, height: nat, rgba: seq<int>)

  /**
   * The size branch of `MnistCanvas`: the pixels it draws and the raster
   * size, or nothing when the count has no square layout.
   */
  method SelectPixels(values: seq<real>) returns (shape: Option<Shape>, pixels: seq<real>)
    ensures shape == ResolveShape(|values|)
    ensures shape.Some? ==> shape.value.rendered <= |values| && pixels == values[..shape.value.rendered]
  {
    var numPixels := |values|;
    assert values[..numPixels] == values;
    if numPixels == 50176 {
      return Some(Shape(28, 28, 784)), values[..784];
    } else if numPixels == 784 {
      return Some(Shape(28, 28, 784)), values;
    }
    var side := IntegerSqrt(numPixels);
    if side.None? || side.value <= 0 {
      return None, [];
    }
    return Some(Shape(side.value, side.value, numPixels)), values;
  }

  /**
   * `MnistCanvas` for a row's input bytes. `values` stands for the float32
   * view of the bytes (`byteLength / 4` values, trailing bytes dropped); the
   * bit-level decoding is not modelled. `byteOffset` is the view's offset in
   * its buffer (the float32 view throws unless it is a multiple of 4) and
   * `hasContext` says whether the canvas and its 2D context exist.
   */
  method DrawCanvas(data: seq<byte>, byteOffset: nat, hasContext: bool, values: seq<real>) returns (view: CanvasView)
    requires |values| == |data| / 4
    ensures view.Drawn? <==>
      |data| > 0 && hasContext && byteOffset % 4 == 0 && ResolveShape(|data| / 4).Some?
    ensures view.Drawn? ==>
      var sh := ResolveShape(|data| / 4).value;
      && view.width == sh.width && view.height == sh.height
      && |view.rgba| == 4 * (view.width * view.height)
      && sh.rendered > 0 && view.rgba == Image(values[..sh.rendered])
  {
    if |data| == 0 || !hasContext || byteOffset % 4 != 0 {
      return Placeholder;
    }
    var shape, pixelsToRender := SelectPixels(values);
    if shape.None? {
      return Placeholder;
    }
    var width, height := shape.value.width, shape.value.height;
    ResolveShapeSpec(|values|);
    assert width * height == |pixelsToRender| > 0;
    var minVal, maxVal := MinMax(pixelsToRender);
    var range := Spread(minVal, maxVal);
    var imageData := new int[4 * (width * height)];
    FillPixels(imageData, pixelsToRender, minVal, range);
    FilledImage(imageData[..], pixelsToRender);
    view := Drawn(width, height, imageData[..]);
  }

  // ---------------------------------------------------------------------
  // Prediction cell, status column and table counts

  /** What the prediction cell shows: the label (-1 for no scores) and its confidence. */
  datatype Prediction = Prediction(digit: int, confidence: Num)

  /** `PredictionCell`'s prediction: the argmax of the scores, or label -1 with confidence 0. */
  function Predict(yPred: seq<Num>): (p: Prediction)
    ensures |yPred| == 0 ==> p == Prediction(-1, Fin(0.0))
    ensures |yPred| > 0 ==> 0 <= p.digit < |yPred| && p.confidence == yPred[p.digit]
    ensures |yPred| > 0 && NoNaN(yPred) ==> forall j :: 0 <= j < |yPred| ==> Le(yPred[j], p.confidence)
  {
    if |yPred| == 0 then Prediction(-1, Fin(0.0))
    else
      var r := MaxIndexOf(yPred);
      assert NoNaN(yPred) ==> forall j :: 0 <= j < |yPred| ==> Le(yPred[j], r.1) by {
        if NoNaN(yPred) {
          ScanMaxIsFirstMaximum(yPred, |yPred|);
        }
      }
      Prediction(r.0, r.1)
  }

  /** The prediction cell is coloured correct when its label equals `y_test`. */
  predicate CellShowsCorrect(row: MnistRow) {
    IsInt(row.yTest, Predict(row.yPred).digit)
  }

  /** The status column: no badge for an empty score list, else correct or incorrect. */
  function StatusBadge(row: MnistRow): Option<bool> {
    if |row.yPred| == 0 then None else Some(IsInt(row.yTest, MaxIndexOf(row.yPred).0))
  }

  /** The table row is tinted red only for a non-empty score list whose argmax is not `y_test`. */
  predicate RowTintedIncorrect(row: MnistRow) {
    |row.yPred| > 0 && !IsInt(row.yTest, MaxIndexOf(row.yPred).0)
  }

  /** The filter of `correctCount`: a non-empty score list whose argmax is `y_test`. */
  predicate CountedCorrect(row: MnistRow) {
    |row.yPred| > 0 && IsInt(row.yTest, MaxIndexOf(row.yPred).0)
  }

  function CorrectCount(data: seq<MnistRow>): nat {
    Count(CountedCorrect, data)
  }

  /** The "Incorrect" card: every row not counted correct. */
  function IncorrectCount(data: seq<MnistRow>): nat {
    |data| - CorrectCount(data)
  }

  /** The accuracy card before rounding to two decimals: 0 without rows. */
  function Accuracy(data: seq<MnistRow>): real {
    if |data| > 0 then (CorrectCount(data) as real / |data| as real) * 100.0 else 0.0
  }

  /** A count over a total, as a fraction, lies in [0, 1] and is 1 only when they are equal. */
  lemma FractionBounds(c: nat, n: nat)
    requires 0 < n && c <= n
    ensures 0.0 <= c as real / n as real <= 1.0
    ensures c as real / n as real == 1.0 <==> c == n
  {
    var q := c as real / n as real;
    assert q * n as real == c as real;
    assert q == 1.0 ==> c as real == n as real;
  }

  /** Accuracy is a percentage, 0 for no rows and 100 only when every row is counted correct. */
  lemma AccuracyBounds(data: seq<MnistRow>)
    ensures 0.0 <= Accuracy(data) <= 100.0
    ensures |data| == 0 ==> Accuracy(data) == 0.0
    ensures |data| > 0 ==> (Accuracy(data) == 100.0 <==> CorrectCount(data) == |data|)
  {
    if |data| > 0 {
      FractionBounds(CorrectCount(data), |data|);
    }
  }

  /** The complement of `CountedCorrect`. */
  predicate NotCountedCorrect(row: MnistRow) {
    !CountedCorrect(row)
  }

  /** A row with no scores. */
  predicate NoScores(row: MnistRow) {
    |row.yPred| == 0
  }

  /**
   * Incorrect counts exactly the rows not counted correct; in particular
   * every row with an empty score list lands in it.
   */
  lemma EmptyScoresCountAsIncorrect(data: seq<MnistRow>)
    ensures IncorrectCount(data) == Count(NotCountedCorrect, data)
    ensures Count(NoScores, data) <= IncorrectCount(data)
  {
    CountSplit(CountedCorrect, NotCountedCorrect, data);
    CountMonotone(NoScores, NotCountedCorrect, data);
  }

  /**
   * The three views disagree on a row with no scores: it is counted
   * incorrect, shows no status badge and is not tinted red. For any other
   * row the count, the badge and the tint agree.
   */
  lemma ScoreViewsAgree(row: MnistRow)
    ensures |row.yPred| == 0 ==> !CountedCorrect(row) && StatusBadge(row) == None && !RowTintedIncorrect(row)
    ensures |row.yPred| > 0 ==>
      && (CountedCorrect(row) <==> StatusBadge(row) == Some(true))
      && (CountedCorrect(row) <==> !RowTintedIncorrect(row))
      && (CountedCorrect(row) <==> CellShowsCorrect(row))
  {
  }

  /** With no scores the prediction cell shows label -1, green only for a label of -1. */
  lemma EmptyScoresCell(row: MnistRow)
    requires |row.yPred| == 0
    ensures CellShowsCorrect(row) <==> IsInt(row.yTest, -1)
  {
  }

  // ---------------------------------------------------------------------
  // ParquetViewer: which screen is shown

  datatype Screen =
    | InitializingSpinner
    | ErrorScreen(message: string)
    | Dropzone(disabled: bool)
    | RowsTable(showSkeleton: bool, rowCount: nat)

  /** `ParquetViewer`'s early returns, in order, from the hook's state. */
  function SelectScreen(isReady: bool, isLoading: bool, error: Option<string>, data: seq<MnistRow>): Screen {
    if !isReady && isLoading then InitializingSpinner
    else if TruthyText(error) then ErrorScreen(error.value)
    else if |data| == 0 then Dropzone(isLoading)
    else RowsTable(isLoading, |data|)
  }

  /**
   * The screen's priority: the start-up spinner first, then an error with
   * non-empty text, then the drop zone for no rows, and the table only
   * when there are rows; an empty error text is not shown.
   */
  lemma ScreenPriority(isReady: bool, isLoading: bool, error: Option<string>, data: seq<MnistRow>)
    ensures SelectScreen(isReady, isLoading, error, data).InitializingSpinner? <==> !isReady && isLoading
    ensures SelectScreen(isReady, isLoading, error, data).ErrorScreen? <==>
      (isReady || !isLoading) && error.Some? && error.value != ""
    ensures SelectScreen(isReady, isLoading, error, data).Dropzone? <==>
      (isReady || !isLoading) && !TruthyText(error) && data == []
    ensures SelectScreen(isReady, isLoading, error, data).RowsTable? <==>
      (isReady || !isLoading) && !TruthyText(error) && data != []
    ensures SelectScreen(isReady, isLoading, error, data).ErrorScreen? ==>
      SelectScreen(isReady, isLoading, error, data).message == error.value
    ensures SelectScreen(isReady, isLoading, error, data).Dropzone? ==>
      SelectScreen(isReady, isLoading, error, data).disabled == isLoading
    ensures SelectScreen(isReady, isLoading, error, data).RowsTable? ==>
      && SelectScreen(isReady, isLoading, error, data).rowCount == |data| > 0
      && SelectScreen(isReady, isLoading, error, data).showSkeleton == isLoading
  {
  }

  /**
   * After "Try Again" (`clearData`: no rows, no error) the viewer is back
   * at the drop zone, enabled unless a load is still running, on a ready
   * engine and on any engine that is not starting; only an engine still
   * starting keeps the spinner. Whatever error was shown before is gone.
   */
  lemma ClearedReadyHookShowsDropzone(isReady: bool, isLoading: bool)
    ensures isReady || !isLoading ==> SelectScreen(isReady, isLoading, None, []) == Dropzone(isLoading)
    ensures !isReady && isLoading ==> SelectScreen(isReady, isLoading, None, []) == InitializingSpinner
    ensures !SelectScreen(isReady, isLoading, None, []).ErrorScreen?
  {
  }
}

=== FILE: seqs.dfy ===
/** `Array.prototype.filter` and the facts about it the list views rely on. */
module Seqs {

  /** `r` is `s` with some elements dropped and the rest kept in order. */
  ghost predicate IsSubsequence<T>(r: seq<T>, s: seq<T>)
    decreases |s|
  {
    if r == [] then true
    else if s == [] then false
    else (r[0] == s[0] && IsSubsequence(r[1..], s[1..])) || IsSubsequence(r, s[1..])
  }

  /** `s.filter(p)`. */
  function Filter<T>(p: T -> bool, s: seq<T>): (r: seq<T>)
    ensures |r| <= |s|
    ensures forall x :: x in r ==> x in s && p(x)
    ensures forall x :: x in s && p(x) ==> x in r
  {
    if s == [] then []
    else if p(s[0]) then [s[0]] + Filter(p, s[1..])
    else Filter(p, s[1..])
  }

  /** Filtering keeps an order-preserving subsequence of its input. */
  lemma {:induction false} FilterIsSubsequence<T>(p: T -> bool, s: seq<T>)
    ensures IsSubsequence(Filter(p, s), s)
  {
    if s != [] {
      FilterIsSubsequence(p, s[1..]);
      var rest := Filter(p, s[1..]);
      if p(s[0]) {
        assert Filter(p, s) == [s[0]] + rest;
        assert ([s[0]] + rest)[1..] == rest;
      } else {
        if rest != [] {
          assert IsSubsequence(rest, s[1..]);
        }
      }
    }
  }

  /** A filter whose predicate holds everywhere keeps the whole list. */
  lemma {:induction false} FilterKeepsAll<T>(p: T -> bool, s: seq<T>)
    requires forall x :: x in s ==> p(x)
    ensures Filter(p, s) == s
  {
    if s != [] {
      FilterKeepsAll(p, s[1..]);
    }
  }

  /** Filtering distributes over concatenation. */
  lemma {:induction false} FilterAppend<T>(p: T -> bool, a: seq<T>, b: seq<T>)
    ensures Filter(p, a + b) == Filter(p, a) + Filter(p, b)
  {
    if a == [] {
      assert a + b == b;
    } else {
      assert (a + b)[1..] == a[1..] + b;
      FilterAppend(p, a[1..], b);
    }
  }

  /** `s.filter(p).length`: how many elements satisfy `p`. */
  function Count<T>(p: T -> bool, s: seq<T>): (n: nat)
    ensures n <= |s|
  {
    |Filter(p, s)|
  }

  /**
   * Whatever satisfies `p` and whatever satisfies its complement `q`
   * together make up the whole list.
   */
  lemma {:induction false} CountSplit<T>(p: T -> bool, q: T -> bool, s: seq<T>)
    requires forall x :: x in s ==> q(x) == !p(x)
    ensures Count(p, s) + Count(q, s) == |s|
  {
    if s != [] {
      CountSplit(p, q, s[1..]);
    }
  }

  /** A weaker predicate never holds of fewer elements. */
  lemma {:induction false} CountMonotone<T>(p: T -> bool, q: T -> bool, s: seq<T>)
    requires forall x :: x in s && p(x) ==> q(x)
    ensures Count(p, s) <= Count(q, s)
  {
    if s != [] {
      CountMonotone(p, q, s[1..]);
    }
  }

  /** Adding one element at the end adds one to the count exactly when it satisfies `p`. */
  lemma CountSnoc<T>(p: T -> bool, s: seq<T>, x: T)
    ensures Count(p, s + [x]) == Count(p, s) + (if p(x) then 1 else 0)
  {
    FilterAppend(p, s, [x]);
  }

  // ---------------------------------------------------------------------
  // Scans over real numbers

  /** The smallest of the first `n` values: a left-to-right scan that replaces on `<`. */
  function MinUpTo(s: seq<real>, n: nat): (m: real)
    requires 1 <= n <= |s|
    ensures forall i :: 0 <= i < n ==> m <= s[i]
  {
    if n == 1 then s[0]
    else
      var m := MinUpTo(s, n - 1);
      if s[n - 1] < m then s[n - 1] else m
  }

  /** The largest of the first `n` values: a left-to-right scan that replaces on `>`. */
  function MaxUpTo(s: seq<real>, n: nat): (m: real)
    requires 1 <= n <= |s|
    ensures forall i :: 0 <= i < n ==> s[i] <= m
  {
    if n == 1 then s[0]
    else
      var m := MaxUpTo(s, n - 1);
      if s[n - 1] > m then s[n - 1] else m
  }

  /** The scan's result is one of the values it scanned. */
  lemma {:induction false} MinUpToAttained(s: seq<real>, n: nat)
    requires 1 <= n <= |s|
    ensures exists i :: 0 <= i < n && s[i] == MinUpTo(s, n)
  {
    if n == 1 {
      assert s[0] == MinUpTo(s, n);
    } else if s[n - 1] < MinUpTo(s, n - 1) {
      assert s[n - 1] == MinUpTo(s, n);
    } else {
      MinUpToAttained(s, n - 1);
      var i :| 0 <= i < n - 1 && s[i] == MinUpTo(s, n - 1);
      assert s[i] == MinUpTo(s, n);
    }
  }

  /** The scan's result is one of the values it scanned. */
  lemma {:induction false} MaxUpToAttained(s: seq<real>, n: nat)
    requires 1 <= n <= |s|
    ensures exists i :: 0 <= i < n && s[i] == MaxUpTo(s, n)
  {
    if n == 1 {
      assert s[0] == MaxUpTo(s, n);
    } else if s[n - 1] > MaxUpTo(s, n - 1) {
      assert s[n - 1] == MaxUpTo(s, n);
    } else {
      MaxUpToAttained(s, n - 1);
      var i :| 0 <= i < n - 1 && s[i] == MaxUpTo(s, n - 1);
      assert s[i] == MaxUpTo(s, n);
    }
  }

  function Min(s: seq<real>): real
    requires |s| > 0
  {
    MinUpTo(s, |s|)
  }

  function Max(s: seq<real>): real
    requires |s| > 0
  {
    MaxUpTo(s, |s|)
  }

  /** The left fold `reduce((acc, x) => acc + x, 0)` over the first `n` values. */
  function SumUpTo(s: seq<real>, n: nat): real
    requires n <= |s|
  {
    if n == 0 then 0.0 else SumUpTo(s, n - 1) + s[n - 1]
  }

  /** Bounds on every value bound the sum: `n * lo <= sum <= n * hi`. */
  lemma {:induction false} SumUpToBounds(s: seq<real>, n: nat, lo: real, hi: real)
    requires n <= |s|
    requires forall i :: 0 <= i < n ==> lo <= s[i] <= hi
    ensures n as real * lo <= SumUpTo(s, n) <= n as real * hi
  {
    if n > 0 {
      SumUpToBounds(s, n - 1, lo, hi);
      assert n as real * lo == (n - 1) as real * lo + lo;
      assert n as real * hi == (n - 1) as real * hi + hi;
    }
  }
}

=== FILE: set_password_card.dfy ===
/**
 * The card on which an invited admin chooses a password: the two inline
 * hints, the checks made before the sign-up request, the request's outcome
 * and the error toast.
 */
module SetPasswordCard {
  import opened Wrappers

  const MissingPassword: string := "Debes ingresar tu nueva contraseña"
  const TooShort: string := "La contraseña debe tener al menos 8 caracteres"
  const Mismatch: string := "Las contraseñas no coinciden"
  const SignupFailed: string := "Error al crear usuario"

  const MinLength: nat := 8

  /** The "too short" hint under the first field. */
  predicate TooShortHint(touched1: bool, password1: string) {
    touched1 && |password1| > 0 && |password1| < MinLength
  }

  /** The "do not match" hint under the second field. */
  predicate MismatchHint(touched2: bool, password1: string, password2: string) {
    touched2 && |password2| > 0 && password1 != password2
  }

  /** The checks of `handleSubmit`, in order: the first failing one gives the message. */
  function Validate(password1: string, password2: string): (r: Option<string>)
    ensures r.None? <==> password1 != "" && password2 != "" && |password1| >= MinLength && password1 == password2
    ensures (password1 == "" || password2 == "") ==> r == Some(MissingPassword)
    ensures password1 != "" && password2 != "" && |password1| < MinLength ==> r == Some(TooShort)
    ensures password1 != "" && password2 != "" && |password1| >= MinLength && password1 != password2 ==> r == Some(Mismatch)
  {
    if password1 == "" || password2 == "" then Some(MissingPassword)
    else if |password1| < MinLength then Some(TooShort)
    else if password1 != password2 then Some(Mismatch)
    else None
  }

  /**
   * The hints never contradict the checks: a password pair that passes
   * them shows no hint, and a pair showing a hint fails them.
   */
  lemma HintsAgreeWithValidation(touched1: bool, touched2: bool, password1: string, password2: string)
    ensures Validate(password1, password2).None? ==>
      !TooShortHint(touched1, password1) && !MismatchHint(touched2, password1, password2)
    ensures TooShortHint(touched1, password1) ==> Validate(password1, password2).Some?
    ensures MismatchHint(touched2, password1, password2) ==> Validate(password1, password2).Some?
  {
  }

  /** The sign-up request's body. */
  datatype SignupRequest = SignupRequest(email: Option<string>, password: string)

  /** How the request ended: a non-ok status, a throw, or an ok status whose body did or did not parse. */
  datatype SignupOutcome = NotOk | Threw | Ok(bodyParses: bool)

  predicate Succeeded(outcome: SignupOutcome) {
    outcome == Ok(true)
  }

  class Card {
    const email: Option<string>
    var password1: string
    var password2: string
    var error: string
    var loading: bool
    var touched1: bool
    var touched2: bool
    var route: Option<string>

    constructor (email: Option<string>)
      ensures this.email == email
      ensures password1 == "" && password2 == "" && error == "" && !loading
      ensures !touched1 && !touched2 && route == None
    {
      this.email := email;
      password1 := "";
      password2 := "";
      error := "";
      loading := false;
      touched1 := false;
      touched2 := false;
      route := None;
    }

    /** Typing in the first field. */
    method EditPassword1(value: string)
      modifies this
      ensures password1 == value
      ensures password2 == old(password2) && error == old(error) && loading == old(loading)
      ensures touched1 == old(touched1) && touched2 == old(touched2) && route == old(route)
    {
      password1 := value;
    }

    /** Typing in the second field. */
    method EditPassword2(value: string)
      modifies this
      ensures password2 == value
      ensures password1 == old(password1) && error == old(error) && loading == old(loading)
      ensures touched1 == old(touched1) && touched2 == old(touched2) && route == old(route)
    {
      password2 := value;
    }

    /** Leaving a field marks it touched; from then on its hint may show. */
    method Blur(first: bool)
      modifies this
      ensures first ==> touched1 && touched2 == old(touched2)
      ensures !first ==> touched2 && touched1 == old(touched1)
      ensures password1 == old(password1) && password2 == old(password2)
      ensures error == old(error) && loading == old(loading) && route == old(route)
    {
      if first {
        touched1 := true;
      } else {
        touched2 := true;
      }
    }

    /**
     * The start of `handleSubmit`: a failed check sets its message and
     * sends nothing; otherwise `loading` turns on and the request carries
     * the invite's email and the first password.
     */
    method BeginSubmit() returns (request: Option<SignupRequest>)
      modifies this
      ensures request.Some? <==> Validate(password1, password2).None?
      ensures request.Some? ==> request.value == SignupRequest(email, password1) && loading && error == old(error)
      ensures request.None? ==> error == Validate(password1, password2).value && loading == old(loading)
      ensures password1 == old(password1) && password2 == old(password2)
      ensures touched1 == old(touched1) && touched2 == old(touched2) && route == old(route)
    {
      if password1 == "" || password2 == "" {
        error := MissingPassword;
        return None;
      }
      if |password1| < MinLength {
        error := TooShort;
        return None;
      }
      if password1 != password2 {
        error := Mismatch;
        return None;
      }
      loading := true;
      request := Some(SignupRequest(email, password1));
    }

    /**
     * The end of `handleSubmit`, once the sign-up request has settled: only
     * an ok response with a readable body navigates to "/"; every other
     * outcome sets "Error al crear usuario". `loading` ends either way.
     */
    method FinishSubmit(outcome: SignupOutcome)
      modifies this
      ensures !loading
      ensures Succeeded(outcome) ==> route == Some("/") && error == old(error)
      ensures !Succeeded(outcome) ==> error == SignupFailed && route == old(route)
      ensures password1 == old(password1) && password2 == old(password2)
      ensures touched1 == old(touched1) && touched2 == old(touched2)
    {
      if !Succeeded(outcome) {
        error := SignupFailed;
        loading := false;
        return;
      }
      loading := false;
      route := Some("/");
    }

    /** `handleSubmit` run to completion with no render in between: the two halves in turn. */
    method HandleSubmit(outcome: SignupOutcome) returns (request: Option<SignupRequest>)
      modifies this
      ensures request.Some? <==> Validate(old(password1), old(password2)).None?
      ensures request.Some? ==> request.value == SignupRequest(email, password1)
      ensures request.None? ==>
        error == Validate(old(password1), old(password2)).value && loading == old(loading) && route == old(route)
      ensures request.Some? && Succeeded(outcome) ==> route == Some("/") && error == old(error) && !loading
      ensures request.Some? && !Succeeded(outcome) ==> error == SignupFailed && route == old(route) && !loading
      ensures password1 == old(password1) && password2 == old(password2)
      ensures touched1 == old(touched1) && touched2 == old(touched2)
    {
      request := BeginSubmit();
      if request.Some? {
        FinishSubmit(outcome);
      }
    }

    /** The render-time toast: a pending error is shown once and then cleared. */
    method FlushError() returns (toast: Option<string>)
      modifies this
      ensures old(error) != "" ==> toast == Some(old(error))
      ensures old(error) == "" ==> toast == None
      ensures error == ""
      ensures password1 == old(password1) && password2 == old(password2) && loading == old(loading)
      ensures touched1 == old(touched1) && touched2 == old(touched2) && route == old(route)
    {
      toast := None;
      if error != "" {
        toast := Some(error);
        error := "";
      }
    }
  }
}

=== FILE: strings.dfy ===
/** The JavaScript string operations the dashboard uses, on `seq<char>`. */
module Strings {
  import opened Wrappers

  /** `s.startsWith(prefix)`. */
  predicate StartsWith(s: string, prefix: string) {
    |prefix| <= |s| && s[..|prefix|] == prefix
  }

  /** `s.includes(sub)`, written as a left-to-right search. */
  predicate Contains(s: string, sub: string)
    decreases |s|
  {
    StartsWith(s, sub) || (|s| > 0 && Contains(s[1..], sub))
  }

  /** `s.includes(sub)` holds exactly when `sub` occurs at some position of `s`. */
  lemma {:induction false} ContainsIff(s: string, sub: string)
    ensures Contains(s, sub) <==> exists k :: 0 <= k <= |s| && StartsWith(s[k..], sub)
    decreases |s|
  {
    if Contains(s, sub) {
      if StartsWith(s, sub) {
        assert s[0..] == s;
      } else {
        ContainsIff(s[1..], sub);
        var k :| 0 <= k <= |s[1..]| && StartsWith(s[1..][k..], sub);
        assert s[1..][k..] == s[k + 1..];
      }
    } else if k :| 0 <= k <= |s| && StartsWith(s[k..], sub) {
      if k > 0 {
        assert s[1..][k - 1..] == s[k..];
        ContainsIff(s[1..], sub);
      }
    }
  }

  /** A string that contains `sub` contains every character of `sub`. */
  lemma ContainsKeepsChars(s: string, sub: string)
    requires Contains(s, sub)
    ensures forall c :: c in sub ==> c in s
  {
    ContainsIff(s, sub);
    var k :| 0 <= k <= |s| && StartsWith(s[k..], sub);
    forall c | c in sub
      ensures c in s
    {
      var j :| 0 <= j < |sub| && sub[j] == c;
      assert s[k..][..|sub|][j] == s[k + j];
    }
  }

  /** Every string contains the empty string (`"abc".includes("") === true`). */
  lemma ContainsEmpty(s: string)
    ensures Contains(s, "")
  {
  }

  /** `s.indexOf(sub)` as an option: the first position where `sub` occurs. */
  function IndexOf(s: string, sub: string): (r: Option<nat>)
    ensures r.Some? ==> r.value <= |s| && StartsWith(s[r.value..], sub)
    ensures r.Some? ==> forall j :: 0 <= j < r.value ==> !StartsWith(s[j..], sub)
    ensures r.None? ==> forall j :: 0 <= j <= |s| ==> !StartsWith(s[j..], sub)
    decreases |s|
  {
    if StartsWith(s, sub) then
      assert s[0..] == s;
      Some(0)
    else if |s| == 0 then
      assert forall j :: 0 <= j <= |s| ==> s[j..] == s;
      None
    else
      var rest := IndexOf(s[1..], sub);
      assert forall j :: 1 <= j <= |s| ==> s[1..][j - 1..] == s[j..];
      assert s[0..] == s;
      match rest
      case Some(k) => Some(k + 1)
      case None => None
  }

  /** The first position where `sub` occurs, told apart by the occurrence there and none before it. */
  lemma IndexOfAt(s: string, sub: string, k: nat)
    requires k <= |s| && StartsWith(s[k..], sub)
    requires forall j :: 0 <= j < k ==> !StartsWith(s[j..], sub)
    ensures IndexOf(s, sub) == Some(k)
  {
  }

  /**
   * `s.replace(pattern, replacement)` with a string pattern: only the FIRST
   * occurrence is replaced; without an occurrence `s` is returned unchanged.
   */
  function ReplaceFirst(s: string, pattern: string, replacement: string): (r: string)
    ensures IndexOf(s, pattern).None? ==> r == s
    ensures IndexOf(s, pattern).Some? ==>
      var k := IndexOf(s, pattern).value;
      r == s[..k] + replacement + s[k + |pattern|..]
  {
    match IndexOf(s, pattern)
    case None => s
    case Some(k) => s[..k] + replacement + s[k + |pattern|..]
  }

  /** A leading `pattern` is the first occurrence, so `replace` strips exactly that prefix. */
  lemma ReplaceLeading(s: string, pattern: string)
    requires StartsWith(s, pattern)
    ensures ReplaceFirst(s, pattern, "") == s[|pattern|..]
  {
    assert s[0..] == s;
  }

  /** A string without `pattern` passes through `replace` unchanged. */
  lemma ReplaceAbsent(s: string, pattern: string)
    requires !Contains(s, pattern)
    ensures ReplaceFirst(s, pattern, "") == s
  {
    ContainsIff(s, pattern);
  }

  /** ASCII lower-casing of one character. */
  function LowerChar(c: char): (d: char)
    ensures 'A' <= c <= 'Z' ==> 'a' <= d <= 'z'
    ensures !('A' <= c <= 'Z') ==> d == c
  {
    if 'A' <= c <= 'Z' then (c as int - 'A' as int + 'a' as int) as char else c
  }

  /** `s.toLowerCase()` restricted to ASCII letters. */
  function ToLower(s: string): (r: string)
    ensures |r| == |s|
    ensures forall i :: 0 <= i < |s| ==> r[i] == LowerChar(s[i])
  {
    seq(|s|, i requires 0 <= i < |s| => LowerChar(s[i]))
  }

  /** Lower-casing the empty string gives the empty string. */
  lemma ToLowerEmpty()
    ensures ToLower("") == ""
  {
  }
}

=== FILE: token_form.dfy ===
/** The form that issues an API token for a user id. */
module TokenForm {
  import opened Wrappers
  import opened Js
  import opened ApiFetch

  const InvalidUserId: string := "Invalid user id."
  const ServerError: string := "Server error. Please try again later."
  const CreateFailed: string := "Failed to create token. Please try again."
  const CreatedPrefix: string := "Token created successfully for user with ID: "

  /** The form's table of messages by status code. */
  function StatusMessage(status: Option<int>): (r: Option<string>)
    ensures r.Some? <==> status == Some(404) || status == Some(500)
  {
    if status == Some(404) then Some(InvalidUserId)
    else if status == Some(500) then Some(ServerError)
    else None
  }

  /** `errorMessages[error.status] || error.message || fallback`: an empty message falls through. */
  function ErrorMessage(e: ApiError): (m: string)
    ensures m != ""
    ensures StatusMessage(e.status).Some? ==> m == StatusMessage(e.status).value
    ensures StatusMessage(e.status).None? && TruthyText(e.message) ==> m == e.message.value
    ensures StatusMessage(e.status).None? && !TruthyText(e.message) ==> m == CreateFailed
  {
    if StatusMessage(e.status).Some? then StatusMessage(e.status).value
    else if TruthyText(e.message) then e.message.value
    else CreateFailed
  }

  /**
   * As written, the status table never applies to what the API helper
   * throws: its Error has no status, so a 404 with an empty body reads
   * "Something went wrong" instead of "Invalid user id.".
   */
  lemma StatusTableUnreachable(status: int, bodyMessage: Option<string>)
    ensures ErrorMessage(FailureError(status, bodyMessage)) == FailureText(status, bodyMessage)
    ensures ErrorMessage(FailureError(404, None)) == SomethingWentWrong != InvalidUserId
  {
  }

  /** With the status attached to the thrown value, 404 and 500 read as the table says whatever the body. */
  lemma StatusTableWithStatus(bodyMessage: Option<string>)
    ensures ErrorMessage(FailureErrorWithStatus(404, bodyMessage)) == InvalidUserId
    ensures ErrorMessage(FailureErrorWithStatus(500, bodyMessage)) == ServerError
  {
  }

  /** The request body `{ user_id: id }`. */
  datatype TokenRequest = TokenRequest(userId: string)

  class Form {
    var id: string
    var loading: bool
    var rootError: Option<string>

    constructor ()
      ensures id == "" && !loading && rootError == None
    {
      id := "";
      loading := false;
      rootError := None;
    }

    method EditId(value: string)
      modifies this
      ensures id == value && loading == old(loading) && rootError == old(rootError)
    {
      id := value;
    }

    /**
     * The first half of a submit, as the form library runs it: the root
     * error is cleared on every submit; when the id passes the UUID check
     * (`idValid`) `loading` turns on and the request carries the id as
     * `user_id`, otherwise nothing else changes.
     */
    method BeginSubmit(idValid: bool) returns (request: Option<TokenRequest>)
      modifies this
      ensures request.Some? <==> idValid
      ensures idValid ==> request == Some(TokenRequest(id)) && loading
      ensures !idValid ==> loading == old(loading)
      ensures id == old(id) && rootError == None
    {
      rootError := None;
      if !idValid {
        return None;
      }
      loading := true;
      request := Some(TokenRequest(id));
    }

    /**
     * The second half, once the request for `sent` has settled: success
     * (`failure == None`) toasts the submitted id and resets the form, a
     * failure keeps what is in the field and sets the root error to the
     * toasted message. `loading` is off either way.
     */
    method FinishSubmit(sent: TokenRequest, failure: Option<ApiError>) returns (toast: Toast)
      modifies this
      ensures !loading
      ensures failure.None? ==> toast == SuccessToast(CreatedPrefix + sent.userId) && id == "" && rootError == None
      ensures failure.Some? ==>
        && toast == ErrorToast(ErrorMessage(failure.value))
        && rootError == Some(ErrorMessage(failure.value)) && id == old(id)
    {
      if failure.None? {
        toast := SuccessToast(CreatedPrefix + sent.userId);
        id := "";
        rootError := None;
      } else {
        var message := ErrorMessage(failure.value);
        rootError := Some(message);
        toast := ErrorToast(message);
      }
      loading := false;
    }

    /** A whole submit with no edit while the request is pending: the two halves in turn. */
    method OnSubmit(idValid: bool, failure: Option<ApiError>) returns (request: Option<TokenRequest>, toast: Option<Toast>)
      modifies this
      ensures request.Some? <==> idValid
      ensures !idValid ==> toast == None && id == old(id) && loading == old(loading) && rootError == None
      ensures idValid ==> request == Some(TokenRequest(old(id))) && !loading
      ensures idValid && failure.None? ==>
        toast == Some(SuccessToast(CreatedPrefix + old(id))) && id == "" && rootError == None
      ensures idValid && failure.Some? ==>
        && toast == Some(ErrorToast(ErrorMessage(failure.value)))
        && rootError == Some(ErrorMessage(failure.value)) && id == old(id)
    {
      request := BeginSubmit(idValid);
      toast := None;
      if request.Some? {
        var shown := FinishSubmit(request.value, failure);
        toast := Some(shown);
      }
    }
  }
}

=== FILE: user_form.dfy ===
/**
 * The form that creates a model user: the error message chosen from the
 * failed request, the model-type-dependent format choices and the form's
 * field state.
 */
module UserForm {
  import opened Wrappers
  import opened Js
  import opened ApiFetch

  const DuplicateUser: string := "Email or username already exists"
  const InvalidInput: string := "Invalid input data"
  const CreateFailedDefault: string := "Failed to create user"
  const Created: string := "User created successfully"

  /** The form's table of messages by status code. */
  function StatusMessage(status: Option<int>): (r: Option<string>)
    ensures r.Some? <==> status == Some(409) || status == Some(422)
  {
    if status == Some(409) then Some(DuplicateUser)
    else if status == Some(422) then Some(InvalidInput)
    else None
  }

  /** What `onError` works out from the thrown error. */
  datatype ErrorReport = ErrorReport(statusCode: Option<int>, message: string, logged: bool)

  /**
   * `onError`: when the error's message is JSON (`parsed`), its `status`
   * and `message` fields are used; when it is not, or is `null` (reading a
   * field of `null` throws before `statusCode` is assigned), the status
   * stays 0 and the raw message is used. The message is the table entry,
   * else the API message unless missing (`??`: an empty one is kept), else
   * the fallback; only a zero or missing status is logged.
   */
  function ResolveError(errorMessage: string, parsed: JsonParse): (r: ErrorReport)
    ensures !parsed.JsonValue? ==> r.statusCode == Some(0) && r.message == errorMessage
    ensures parsed.JsonValue? ==> r.statusCode == parsed.status
    ensures parsed.JsonValue? && StatusMessage(parsed.status).Some? ==> r.message == StatusMessage(parsed.status).value
    ensures parsed.JsonValue? && StatusMessage(parsed.status).None? && parsed.message.Some? ==> r.message == parsed.message.value
    ensures parsed.JsonValue? && StatusMessage(parsed.status).None? && parsed.message.None? ==> r.message == CreateFailedDefault
    ensures r.logged <==> r.statusCode == None || r.statusCode == Some(0)
  {
    var statusCode: Option<int> := if parsed.JsonValue? then parsed.status else Some(0);
    var apiMessage: Option<string> := if parsed.JsonValue? then parsed.message else Some(errorMessage);
    var message :=
      if StatusMessage(statusCode).Some? then StatusMessage(statusCode).value
      else if apiMessage.Some? then apiMessage.value
      else CreateFailedDefault;
    ErrorReport(statusCode, message, statusCode == None || statusCode == Some(0))
  }

  /**
   * A message that is not JSON is shown as it is, even when empty, and is
   * logged; in particular what the API helper throws never reaches the
   * status table unless its text happens to be JSON: a 409 with an empty
   * body shows "Something went wrong", not the duplicate-user text.
   */
  lemma PlainMessageShownVerbatim(errorMessage: string)
    ensures ResolveError(errorMessage, NotJson) == ErrorReport(Some(0), errorMessage, true)
    ensures ResolveError(errorMessage, JsonNull) == ErrorReport(Some(0), errorMessage, true)
    ensures ResolveError(FailureText(409, None), NotJson).message == SomethingWentWrong != DuplicateUser
    ensures ResolveError(FailureText(422, None), NotJson).message == SomethingWentWrong != InvalidInput
  {
  }

  /**
   * Had the thrown text been the JSON `{ status, message }` that `onError`
   * parses, 409 and 422 would read as the table says whatever the body,
   * with the response's status reported and nothing logged.
   */
  lemma StatusTableWithJsonError(thrownText: string, bodyMessage: Option<string>)
    ensures ResolveError(thrownText, JsonValue(Some(409), Some(FailureText(409, bodyMessage))))
      == ErrorReport(Some(409), DuplicateUser, false)
    ensures ResolveError(thrownText, JsonValue(Some(422), Some(FailureText(422, bodyMessage))))
      == ErrorReport(Some(422), InvalidInput, false)
  {
  }

  /** The shown message is never empty unless the API itself sent an empty one. */
  lemma ResolvedMessageSource(errorMessage: string, parsed: JsonParse)
    ensures var m := ResolveError(errorMessage, parsed).message;
      m == "" ==> (!parsed.JsonValue? && errorMessage == "") || (parsed.JsonValue? && parsed.message == Some(""))
  {
  }

  // ---------------------------------------------------------------------
  // Model types and formats

  /** The input formats offered for a model type. */
  function InputFormats(modelType: string): (r: seq<string>)
    ensures modelType != "MNIST" && modelType != "ACDC" ==> r == []
  {
    if modelType == "MNIST" then ["(28, 28, 1)"]
    else if modelType == "ACDC" then ["(256, 256, 1)"]
    else []
  }

  /** The output formats offered for a model type. */
  function OutputFormats(modelType: string): (r: seq<string>)
    ensures modelType != "MNIST" && modelType != "ACDC" ==> r == []
  {
    if modelType == "MNIST" then ["(10,)"]
    else if modelType == "ACDC" then ["(256, 256, 4)"]
    else []
  }

  /** Both format selects are disabled until a model type is chosen. */
  predicate FormatsDisabled(modelType: string) {
    modelType == ""
  }

  /**
   * The two model types offer disjoint formats, each one input and one
   * output format, none of them empty, so a format picked from the offer
   * passes the form's non-empty checks.
   */
  lemma FormatOffers(modelType: string)
    ensures FormatsDisabled(modelType) ==> InputFormats(modelType) == [] && OutputFormats(modelType) == []
    ensures modelType in {"MNIST", "ACDC"} ==> |InputFormats(modelType)| == 1 && |OutputFormats(modelType)| == 1
    ensures forall f :: f in InputFormats(modelType) + OutputFormats(modelType) ==> f != ""
    ensures forall f :: f in InputFormats("MNIST") ==> f !in InputFormats("ACDC")
    ensures forall f :: f in OutputFormats("MNIST") ==> f !in OutputFormats("ACDC")
  {
  }

  /** The request body: the five validated fields. */
  datatype UserRequest = UserRequest(username: string, email: string, modelType: string, inputsFormat: string, outputsFormat: string)

  /** How the create request ended. */
  datatype CreateOutcome = CreateSucceeded | CreateFailed(errorMessage: string, parsed: JsonParse)

  class Form {
    var username: string
    var email: string
    var modelType: string
    var inputsFormat: string
    var outputsFormat: string
    var loading: bool
    var rootError: Option<string>

    /** Every field empty: the form's default values. */
    predicate AtDefaults()
      reads this
    {
      username == "" && email == "" && modelType == "" && inputsFormat == "" && outputsFormat == ""
    }

    constructor ()
      ensures AtDefaults() && !loading && rootError == None
    {
      username := "";
      email := "";
      modelType := "";
      inputsFormat := "";
      outputsFormat := "";
      loading := false;
      rootError := None;
    }

    /** Choosing a model type clears the input format and leaves the output format as it was. */
    method SelectModelType(value: string)
      modifies this
      ensures modelType == value && inputsFormat == ""
      ensures outputsFormat == old(outputsFormat) && username == old(username) && email == old(email)
      ensures loading == old(loading) && rootError == old(rootError)
    {
      modelType := value;
      inputsFormat := "";
    }

    /** Typing in the email field. */
    method EditEmail(value: string)
      modifies this
      ensures email == value
      ensures username == old(username) && modelType == old(modelType) && inputsFormat == old(inputsFormat) && outputsFormat == old(outputsFormat)
      ensures loading == old(loading) && rootError == old(rootError)
    {
      email := value;
    }

    /** Typing in the username field. */
    method EditUsername(value: string)
      modifies this
      ensures username == value
      ensures email == old(email) && modelType == old(modelType) && inputsFormat == old(inputsFormat) && outputsFormat == old(outputsFormat)
      ensures loading == old(loading) && rootError == old(rootError)
    {
      username := value;
    }

    /** Choosing an input format; the select offers `InputFormats(modelType)`. */
    method SelectInputFormat(value: string)
      modifies this
      ensures inputsFormat == value
      ensures username == old(username) && email == old(email) && modelType == old(modelType) && outputsFormat == old(outputsFormat)
      ensures loading == old(loading) && rootError == old(rootError)
    {
      inputsFormat := value;
    }

    /** Choosing an output format; the select offers `OutputFormats(modelType)`. */
    method SelectOutputFormat(value: string)
      modifies this
      ensures outputsFormat == value
      ensures username == old(username) && email == old(email) && modelType == old(modelType) && inputsFormat == old(inputsFormat)
      ensures loading == old(loading) && rootError == old(rootError)
    {
      outputsFormat := value;
    }

    /** The schema's checks; the email pattern is the abstract `emailValid`. */
    predicate SchemaAccepts(emailValid: bool)
      reads this
    {
      username != "" && emailValid && modelType != "" && inputsFormat != "" && outputsFormat != ""
    }

    /**
     * The first half of a submit, as the form library runs it: the root
     * error is cleared on every submit; when the schema accepts the form
     * `loading` turns on and the request carries its five fields, otherwise
     * nothing else changes.
     */
    method BeginSubmit(emailValid: bool) returns (request: Option<UserRequest>)
      modifies this
      ensures request.Some? <==> old(SchemaAccepts(emailValid))
      ensures request.Some? ==>
        request.value == UserRequest(username, email, modelType, inputsFormat, outputsFormat) && loading
      ensures request.None? ==> loading == old(loading)
      ensures rootError == None
      ensures username == old(username) && email == old(email) && modelType == old(modelType)
      ensures inputsFormat == old(inputsFormat) && outputsFormat == old(outputsFormat)
    {
      rootError := None;
      if !SchemaAccepts(emailValid) {
        return None;
      }
      loading := true;
      request := Some(UserRequest(username, email, modelType, inputsFormat, outputsFormat));
    }

    /**
     * The second half, once the request has settled: success toasts and
     * resets every field, a failure toasts the resolved message, sets it as
     * the root error and keeps the fields. `loading` is off either way.
     */
    method FinishSubmit(outcome: CreateOutcome) returns (toast: Toast)
      modifies this
      ensures !loading
      ensures outcome.CreateSucceeded? ==> toast == SuccessToast(Created) && AtDefaults() && rootError == None
      ensures outcome.CreateFailed? ==>
        && toast == ErrorToast(ResolveError(outcome.errorMessage, outcome.parsed).message)
        && rootError == Some(ResolveError(outcome.errorMessage, outcome.parsed).message)
        && username == old(username) && email == old(email) && modelType == old(modelType)
        && inputsFormat == old(inputsFormat) && outputsFormat == old(outputsFormat)
    {
      match outcome {
        case CreateSucceeded =>
          toast := SuccessToast(Created);
          username, email, modelType, inputsFormat, outputsFormat := "", "", "", "", "";
          rootError := None;
        case CreateFailed(errorMessage, parsed) =>
          var report := ResolveError(errorMessage, parsed);
          toast := ErrorToast(report.message);
          rootError := Some(report.message);
      }
      loading := false;
    }

    /** A whole submit with no edit while the request is pending: the two halves in turn. */
    method OnSubmit(emailValid: bool, outcome: CreateOutcome) returns (request: Option<UserRequest>, toast: Option<Toast>)
      modifies this
      ensures request.Some? <==> old(SchemaAccepts(emailValid))
      ensures request.None? ==>
        && toast == None && loading == old(loading) && rootError == None
        && username == old(username) && email == old(email) && modelType == old(modelType)
        && inputsFormat == old(inputsFormat) && outputsFormat == old(outputsFormat)
      ensures request.Some? ==>
        && request.value == UserRequest(old(username), old(email), old(modelType), old(inputsFormat), old(outputsFormat))
        && !loading
      ensures request.Some? && outcome.CreateSucceeded? ==>
        toast == Some(SuccessToast(Created)) && AtDefaults() && rootError == None
      ensures request.Some? && outcome.CreateFailed? ==>
        && toast == Some(ErrorToast(ResolveError(outcome.errorMessage, outcome.parsed).message))
        && rootError == Some(ResolveError(outcome.errorMessage, outcome.parsed).message)
        && username == old(username) && email == old(email) && modelType == old(modelType)
        && inputsFormat == old(inputsFormat) && outputsFormat == old(outputsFormat)
    {
      request := BeginSubmit(emailValid);
      toast := None;
      if request.Some? {
        var shown := FinishSubmit(outcome);
        toast := Some(shown);
      }
    }
  }
}

=== FILE: wrappers.dfy ===
/** Optional values: JavaScript's `undefined`/`null` alternatives and optional fields. */
module Wrappers {

  datatype Option<+T> = None | Some(value: T) {

    /** The value, or `default` when there is none (JavaScript's `x ?? default`). */
    function GetOr(default: T): T {
      match this
      case Some(v) => v
      case None => default
    }
  }
}
